=== FILE: README.md ===
# Particle-mesh density deposition and the expansion-factor ensemble, in Dafny

This project models two sequential pieces of a cosmological particle-mesh N-body code.

1. **The grid side of one simulation** (`lib/Simulation.cpp`).
   - The constructor allocates three complex buffers of N³ cells (density, potential and frequency space) and zeroes them.
   - `bin_particles` counts the particles of the unit cube in an N×N×N occupancy histogram. Each particle goes to cell `floor(x·N), floor(y·N), floor(z·N)`.
   - `fill_density_buffer` walks the grid in row-major order. It writes `count · mass / (W/N)³` into the real component of the buffer cell at flat index `k + N·(j + N·i)`.
2. **The expansion-factor comparison run** (`app/NBody_Comparison.cpp`).
   - Rank 0, the controller, reads `-o`, `-emin` and `-emax` flag pairs.
   - It splits [min, max] into P − 1 equal steps and sends every worker two tagged doubles.
   - Each worker derives its expansion factor from what it receives, runs, and replies with a length on tag 2 and a correlation vector on tag 3.
   - The controller gathers the vectors in ascending rank order. It labels rank r with `min + r·step`.

The model is functional. A `Simulation` value holds the buffers as sequences of `Complex`. `FillDensityBuffer` returns the updated value, and the binning and fill loops are methods with loop invariants. Positions, masses and densities are `real`s, so arithmetic is exact and `floor` is `.Floor`.

The message exchange is a log of envelopes. Each (source, destination) pair has a FIFO channel. A receive takes the earliest queued message with the requested tag; this is the non-overtaking rule of section 3.5 of the MPI standard for one communicator. `std::stod` and the correlation function are parameters.

The correlation is passed as a function of the rank's expansion factor. `Simulation::run` is empty, so in the program as it stands every rank correlates the same initial particles. The model keeps the factor as the only input that differs between ranks.

Modules:
- `GridIndex` (grid_index.dfy): cell of a coordinate, flat index and its inverse.
- `Histogram` (histogram.dfy): the nested-vector histogram, its sum and its row-major flattening.
- `Simulation` (simulation.dfy): construction, binning, deposition.
- `CommandLine` (command_line.dfy): the flag loop.
- `Messaging` (messaging.dfy): tagged channels and receive.
- `Ensemble` (ensemble.dfy): the schedule, the protocol and the whole run.
- `Wrappers` (wrappers.dfy): `Option` and `Result`.

## Model

| member | source | states |
|---|---|---|
| GridIndex.CellOf | lib/Simulation.cpp:46-47 | for 0 ≤ p < 1 and N > 0, `floor(p·N)` is a cell index below N, and it is the floor: c ≤ p·N < c + 1 |
| GridIndex.FlatIndex | lib/Simulation.cpp:57 | the index `k + N·(j + N·i)` of every cell of the grid is below N³, so the write stays inside the buffer |
| GridIndex.FlatIndexInjective | lib/Simulation.cpp:57 | two grid cells with the same flat index are the same cell, so no cell's write lands on another's |
| GridIndex.CellAt | lib/Simulation.cpp:54-57 | every index below N³ is the flat index of a grid cell, the q-th cell in the loop order; with FlatIndexInjective this makes the map a bijection onto [0, N³) |
| GridIndex.CellAtFlatIndex | lib/Simulation.cpp:57 | CellAt inverts FlatIndex: the cell stored at the index of (i, j, k) is (i, j, k) |
| GridIndex.SuccessorIndex | lib/Simulation.cpp:54-57 | the loops run k fastest, then j, then i: the next cell in loop order has the next flat index |
| Histogram.EmptyHistogram | lib/Simulation.cpp:42 | the counts start as an N×N×N grid of zeros with total 0 |
| Histogram.Increment | lib/Simulation.cpp:46-47 | incrementing one cell adds one there, leaves every other cell and the shape as they were, and adds one to the total |
| Histogram.FlattenIndex | lib/Simulation.cpp:57-59 | the index `k + N·(j + N·i)` of every histogram cell lies inside the row-major flattening, and the entry there is `counts[i][j][k]` |
| Histogram.FlattenSum | lib/Simulation.cpp:53-59 | flattening the histogram keeps its total |
| Simulation.NewSimulation | lib/Simulation.cpp:6-19 | the three buffers have N³ cells, every component of every cell is zero, and the parameters are stored as given |
| Simulation.CellOfParticle | lib/Simulation.cpp:45-47 | the cell of a particle in the unit cube, floored on each axis, is a cell of the grid |
| Simulation.BinParticles | lib/Simulation.cpp:41-50 | the counts form an N×N×N grid, they sum to the number of particles, and each count is the number of particles whose floored coordinates name that cell |
| Simulation.DepositRow | lib/Simulation.cpp:56-60 | the innermost loop extends the deposited prefix of the buffer from cell (i, j, 0) to (i, j + 1, 0) and leaves the cells after it untouched |
| Simulation.DepositAll | lib/Simulation.cpp:54-62 | after the triple loop, every cell of the buffer holds the deposit of its flat count; the count comes from the histogram cell whose row-major index it has |
| Simulation.DepositedBufferMass | lib/Simulation.cpp:59 | the real parts of a deposited buffer times the cell volume add up to the total count times the particle mass |
| Simulation.FillMass | lib/Simulation.cpp:53-62 | when the counts add up to the particle count, the deposited mass is the mass of the particle group |
| Simulation.FillDensityBuffer | lib/Simulation.cpp:52-63 | cell (i, j, k) gets occupancy · mass / (W/N)³, whatever it held before. Equivalently, flat cell q gets the density of the cell stored at q. Imaginary parts, the other buffers and all parameters are unchanged. The deposited mass equals the particles' mass |
| CommandLine.ParseFrom | app/NBody_Comparison.cpp:19-37 | the flag loop from one flag position on: an error is always an unknown flag, and a bound set before the loop is still set after it |
| CommandLine.ParseArgs | app/NBody_Comparison.cpp:19-37 | the loop from argument 1 with an empty folder and unset bounds accepts the arguments iff every flag position holds `-o`, `-emin` or `-emax`; otherwise it reports an unknown flag |
| CommandLine.ParseFromOkIff | app/NBody_Comparison.cpp:19-37 | the flag loop succeeds exactly when every flag position holds `-o`, `-emin` or `-emax` |
| CommandLine.ParseFromErrFirst | app/NBody_Comparison.cpp:32-36 | when it aborts, it aborts on the first unknown flag |
| CommandLine.ParseFromLastWins | app/NBody_Comparison.cpp:19-31 | each setting ends as the value of the last pair for its flag, or as it was if the flag never appears |
| CommandLine.UnpairedUnknownFlagAborts | app/NBody_Comparison.cpp:19-36 | an unknown flag aborts whatever follows it: `prog -x` and `prog -emin 1 -x` fail on `-x` without a value after it, and `prog -x a -o` fails on `-x` before reaching the `-o` that has no value |
| CommandLine.FlagSpellingAsValue | app/NBody_Comparison.cpp:19-22 | a value slot is a value even when it spells a flag: `prog -o -emin` is accepted with folder `-emin` and both bounds unset |
| CommandLine.ParseArgsCorrect | app/NBody_Comparison.cpp:19-37 | the whole loop from argument 1: accepted iff every flag is known, otherwise the error names the first unknown flag; on success the folder is the last `-o` value or empty, and each bound is the last converted value or unset |
| Messaging.FirstTagged | app/NBody_Comparison.cpp:86-87 | the match for a tag is the earliest queued message with that tag; none exists iff no queued message has the tag |
| Messaging.Receive | app/NBody_Comparison.cpp:65-67 | a receive blocks for ever (None) iff no queued message has the tag; otherwise exactly one message leaves the queue |
| Messaging.ReceiveHead | app/NBody_Comparison.cpp:86-87 | when the oldest message carries the tag, the receive takes it and leaves the rest in order |
| Messaging.ReceiveSkip | app/NBody_Comparison.cpp:86-87 | a message with another tag stays at the front, and the receive acts on the rest as if it were not there |
| Messaging.ChannelMembers | app/NBody_Comparison.cpp:47-50 | the channel from a source to a destination holds a message iff the log of sends sends that message from that source to that destination |
| Messaging.ChannelAppend | app/NBody_Comparison.cpp:47-50 | the channel of two consecutive runs of sends is the first run's channel followed by the second's |
| Ensemble.RankSimulation | app/NBody_Comparison.cpp:38-54 | the simulation a rank builds from a given expansion factor and 13·101³ particles has 101³ = 1030301 cells per buffer, particles of mass 10⁵ over the particle count that together weigh 10⁵, width 100, t_max 1.5, step 0.01, and that factor as its expansion factor |
| Ensemble.Step | app/NBody_Comparison.cpp:43 | with P ≥ 2 ranks, P − 1 steps lead exactly from the minimum to the maximum |
| Ensemble.Labels | app/NBody_Comparison.cpp:44-45 | the controller starts the labels with its own factor `min + 0·step` and then runs the worker loop; the result has P labels, and rank r's label is min + r·step |
| Ensemble.LabelsFrom | app/NBody_Comparison.cpp:58-61 | the loop that appends one worker's label per iteration, from rank `from` up to P − 1, turns labels recorded for ranks below `from` into P labels, rank r's being min + r·step |
| Ensemble.LabelsSpan | app/NBody_Comparison.cpp:43-45 | with P ≥ 2 the schedule starts at the minimum and, in exact arithmetic, its last label is the maximum |
| Ensemble.ControllerSends | app/NBody_Comparison.cpp:47-50 | the send loop over workers from..P−1 issues exactly two messages per worker |
| Ensemble.ControllerSendsRoute | app/NBody_Comparison.cpp:47-50 | every message of the send loop goes from rank 0 to a worker in 1..P−1 |
| Ensemble.ControllerSendsOrder | app/NBody_Comparison.cpp:47-50 | the send loop issues two messages per worker in ascending rank order, the minimum on tag 0 before the step on tag 1 |
| Ensemble.ControllerChannel | app/NBody_Comparison.cpp:47-50 | worker w's channel from the controller holds exactly [minimum on tag 0, step on tag 1] for 1 ≤ w < P, and ranks outside 1..P−1 get nothing |
| Ensemble.WorkerFactor | app/NBody_Comparison.cpp:86-89 | a worker derives its factor from a receive for tag 0 and one for tag 1; it fails only by stalling on a missing message or on a message of the wrong kind, and the failure names its rank |
| Ensemble.WorkerFactorOnSends | app/NBody_Comparison.cpp:86-89 | a worker receiving the controller's two messages computes step + rank·minimum as written, and minimum + rank·step when each value is stored under the name it was sent as |
| Ensemble.WorkerReplies | app/NBody_Comparison.cpp:98-99 | a worker's two replies go to rank 0: a length on tag 2 and a data message on tag 3 that carries exactly the announced 101 values, the first 101 of its correlation vector |
| Ensemble.WorkerLog | app/NBody_Comparison.cpp:86-99 | the workers send two replies each, or fail at the first worker that cannot derive its factor or whose correlation is shorter than the 101 values it sends |
| Ensemble.WorkersReply | app/NBody_Comparison.cpp:86-99 | when every worker derives its factor from the controller's two messages and its correlation has at least 101 values, every worker replies with the correlation of that factor |
| Ensemble.WorkersOverread | app/NBody_Comparison.cpp:98-99 | when some worker's correlation is shorter than 101 values, the replies fail with the overread of the first such worker |
| Ensemble.RepliesChannel | app/NBody_Comparison.cpp:98-99 | the channel from worker w to the controller holds exactly [101 on tag 2, the first 101 values of w's vector on tag 3] |
| Ensemble.ReceiveReply | app/NBody_Comparison.cpp:64-67 | the controller's two receives from one rank fail only by stalling, by a message of the wrong kind, or by a vector longer than the announced length, and the failure names that rank |
| Ensemble.ReceiveReplyOnPair | app/NBody_Comparison.cpp:64-67 | receiving a length n and then a vector yields the vector zero-padded to n, or a truncation error when the vector is longer than n; a vector of exactly n values comes back unchanged |
| Ensemble.Gather | app/NBody_Comparison.cpp:59-69 | on success there is one vector per rank from 1 to P − 1, in rank order, each what that rank's receives returned; a failure is that of the first rank whose receives fail |
| Ensemble.GatherOkIff | app/NBody_Comparison.cpp:59-69 | the gather succeeds exactly when every rank's receives succeed |
| Ensemble.GatherCollects | app/NBody_Comparison.cpp:59-69 | when every rank's receives return its vector, the gather returns the vectors in ascending rank order |
| Ensemble.RepliesReceived | app/NBody_Comparison.cpp:64-68 | when every worker replies from a vector of at least 101 values, the controller receives the first 101 values of it |
| Ensemble.Exchange | app/NBody_Comparison.cpp:47-69 | the exchange yields P − 1 vectors, or fails at a worker rank in 1..P−1 |
| Ensemble.ExchangeCompletes | app/NBody_Comparison.cpp:47-99 | when every worker's correlation has at least 101 values the exchange completes, and entry w − 1 is the first 101 values of the correlation of the factor worker w derives from its messages |
| Ensemble.ExchangeOkIff | app/NBody_Comparison.cpp:47-99 | the exchange completes exactly when every worker's correlation has at least 101 values; otherwise it fails with the overread of the first worker whose correlation is shorter, and never by stalling, a malformed message or truncation |
| Ensemble.RunEnsemble | app/NBody_Comparison.cpp:19-69 | a report has P ≥ 2 and one label and one correlation per rank; an abort names an unknown flag, and an exchange failure names a worker rank in 1..P−1 |
| Ensemble.RunAborts | app/NBody_Comparison.cpp:32-36 | the run aborts, before any schedule or send, exactly when some flag position holds an unknown flag, and it reports the first one |
| Ensemble.RunOkIff | app/NBody_Comparison.cpp:19-69 | a run reaches the output step with a report exactly when the flags are accepted, both bounds are set and P ≥ 2. An unset bound gives Indeterminate and P = 1 gives StepUndefined. With correlations of at least 101 values nothing fails in the exchange |
| Ensemble.RunCompletes | app/NBody_Comparison.cpp:43-69 | the report has the parsed folder, P labels `min + r·step` running from min to max, and P correlations; entry 0 is the controller's whole vector (factor min), entry w the first 101 values of the one worker w computed |
| Ensemble.RunAsWritten | app/NBody_Comparison.cpp:86-89 | as written, worker w's entry is the first 101 values of the correlation of step + w·min, with the roles of minimum and step exchanged |
| Ensemble.RunIntended | app/NBody_Comparison.cpp:86-89 | with each value bound to the name it was sent as, every entry comes from the correlation of the factor of its own label (the first 101 values for a worker) |
| Ensemble.AsWrittenMatchesLabelIff | app/NBody_Comparison.cpp:86-89 | as written, worker r's factor equals its label iff r = 1 or min = step |
| Ensemble.AsWrittenCounterexample | app/NBody_Comparison.cpp:86-89 | with -emin 1 -emax 2 on three ranks the step is 0.5; rank 2 is labelled 2.0 but runs with 2.5, and 2.0 when the tags are bound as intended |

## Left out

- FFTW: plan creation, execution and destruction, and the body of `fill_potential_buffer`. These are foreign calls, and the Fourier-space step is an unfinished TODO. The potential and frequency-space buffers appear only as buffers. The constructor creates its plans with `FFTW_MEASURE` after zeroing the buffers (lib/Simulation.cpp:22-23), and FFTW documents that MEASURE planning may overwrite the arrays it plans for. So the all-zero buffers `NewSimulation` states are the state after the zeroing at line 19, not necessarily after the constructor returns.
- Raw allocation and freeing of the buffers, and the destructor. Buffers are sequences.
- `Simulation::run`, which is empty. There is no time loop, integrator or expansion code to model.
- `get_density_buffer`. It returns the buffer, which is the `density` field here.
- The MPI runtime: `MPI_Init`, rank and size queries, `MPI_Abort`, `MPI_Finalize`, and real blocking and concurrency. The rank count P is a parameter, and a receive that would block for ever is a `Stalled` failure.
- The particle generator (`particle_group` with seed 42), `correlationFunction`, `findsigfig`, `Save_Correlations_csv`, the output file path and `std::filesystem`, apart from the empty-folder case under Ensemble.RunOkIff below. These are collaborators whose code is not part of this model, or plain I/O. Labels are kept as reals, not as formatted strings.
- `std::stod`. It is a total parameter `string -> real`, so its exceptions on malformed numbers are not modelled.
- IEEE-754 doubles. Arithmetic is exact, so rounding of `floor(p·N)` and of the schedule is not modelled.
- CommandLine.ParseArgs: requires that every known flag the loop reaches has a value after it. The loop reaches a flag position only when no earlier flag position holds an unknown flag. The other parser members and the run have the same requires. It excludes only one case: a known flag in the last flag position, with no unknown flag before it and nothing after it. There the program reads `argv[argc]`, a null pointer, as the value. An unknown flag reads no value and aborts whatever follows it, and the model covers that (`CommandLine.UnpairedUnknownFlagAborts`). A value slot that spells a flag is read as a value (`CommandLine.FlagSpellingAsValue`).
- Simulation.NewSimulation: requires N³ < 2³² instead of modelling the wrap-around of the `uint` buffer length.
- Simulation.BinParticles: requires every position in [0, 1)³, and N > 0 when there are particles. Outside that, the program indexes the count vectors out of bounds.
- Simulation.FillDensityBuffer: requires a non-zero box width. With width 0 the program divides by a zero cell volume and writes infinities or NaNs.
- Ensemble.RunEnsemble: a bound no flag sets is the `Indeterminate` failure; the program reads an uninitialised double. P = 1 is the `StepUndefined` failure; the program divides by zero, runs rank 0 alone with factor NaN and writes a one-row report.
- Ensemble.WorkerLog: a worker whose correlation has fewer than 101 values sends 101 doubles from it anyway, reading past the end of the vector. The model does not say what such a send carries; it reports the `Overread` failure for the first such worker.
- Ensemble.RunOkIff: a report here is what the controller hands to `Save_Correlations_csv`. Without `-o`, or with an empty `-o` value, the folder is the empty string. The program then calls `std::filesystem::create_directories("")` at line 73. libstdc++ rejects an empty path, so that call throws `filesystem_error` and rank 0 terminates without writing anything. The model still returns the report. Ensemble.RunCompletes makes the same promise and has the same gap.
- Ensemble.RunCompletes: assumes every correlation has at least 101 values, and so do Ensemble.RunOkIff, Ensemble.RunAsWritten and Ensemble.RunIntended. Ensemble.ExchangeOkIff states what happens otherwise.
- Ensemble.Gather: the length goes out as `MPI_UNSIGNED` and is received as `MPI_INT`. The model treats it as a natural number.

## Findings

| source | as written | input that shows it | evidently intended | confidence | as-written member | corrected member |
|---|---|---|---|---|---|---|
| app/NBody_Comparison.cpp:86-87 | The controller sends the minimum on tag 0 and the step on tag 1. The worker receives tag 0 into `expansion_factor_step` and tag 1 into `minimum_expansion_factor`. So worker r runs with step + r·min, not with its label | `-emin 1 -emax 2` on 3 ranks: the step is 0.5, and rank 2 is labelled 2.0 but runs with 0.5 + 2·1 = 2.5 | each worker runs with min + r·step, the factor the controller records as its label | not executed; high, since the mismatch follows from the tags alone | Ensemble.RunAsWritten, Ensemble.AsWrittenCounterexample | Ensemble.RunIntended |

=== FILE: command_line.dfy ===
/**
 The controller's argument loop: the arguments after the program name are read
 in (flag, value) pairs. `-o` sets the output folder, `-emin` and `-emax` set the
 expansion-factor bounds through a string-to-number conversion, a later pair
 overrides an earlier one, and any other flag aborts the whole run.
 */
module CommandLine {
  import opened Wrappers

  /** What the loop leaves behind. A bound is None while no flag has set it: the program
      declares the two doubles without initialising them. */
  datatype Options = Options(outputFolder: string, minimum: Option<real>, maximum: Option<real>)

  /** The state before the loop: an empty folder name and both bounds unset. */
  const Unset: Options := Options("", None, None)

  predicate IsKnownFlag(flag: string) {
    flag == "-o" || flag == "-emin" || flag == "-emax"
  }

  /** Argument positions 1, 3, 5, ... hold flags; each is followed by its value. */
  predicate IsFlagPosition(args: seq<string>, i: int) {
    1 <= i < |args| && i % 2 == 1
  }

  /** Every flag position from i up to j holds a known flag. */
  predicate KnownBetween(args: seq<string>, i: int, j: int) {
    forall k :: i <= k < j && k < |args| && IsFlagPosition(args, k) ==> IsKnownFlag(args[k])
  }

  /** Every known flag the loop reaches from flag position i on has a value after it. The
      loop reaches a flag only when no unknown flag comes before it, and only a known flag
      reads its value: an unknown flag stops the loop whatever follows it. */
  predicate ValuesPresentFrom(args: seq<string>, i: int) {
    forall j :: i <= j < |args| && IsFlagPosition(args, j) && IsKnownFlag(args[j]) && KnownBetween(args, i, j)
      ==> j + 1 < |args|
  }

  /** Every known flag the whole loop reaches has a value after it. */
  predicate ValuesPresent(args: seq<string>) {
    ValuesPresentFrom(args, 1)
  }

  /** A known flag the loop reaches has its value, and the loop can go on from the next pair. */
  lemma ValuesPresentNext(args: seq<string>, i: int)
    requires ValuesPresentFrom(args, i) && IsFlagPosition(args, i) && IsKnownFlag(args[i])
    ensures i + 1 < |args| && ValuesPresentFrom(args, i + 2)
  {
    assert KnownBetween(args, i, i);
    forall j | i + 2 <= j < |args| && IsFlagPosition(args, j) && IsKnownFlag(args[j]) && KnownBetween(args, i + 2, j)
      ensures j + 1 < |args|
    {
      assert KnownBetween(args, i, j);
    }
  }

  /** The loop from flag position i on, starting from the settings opts; Err carries the
      first unknown flag, on which the program aborts. A bound set before the loop stays set. */
  function ParseFrom(args: seq<string>, i: nat, opts: Options, stod: string -> real): (r: Result<Options, string>)
    requires ValuesPresentFrom(args, i) && i % 2 == 1
    ensures r.Err? ==> !IsKnownFlag(r.error)
    ensures r.Ok? && opts.minimum.Some? ==> r.value.minimum.Some?
    ensures r.Ok? && opts.maximum.Some? ==> r.value.maximum.Some?
    decreases |args| - i
  {
    if i >= |args| then Ok(opts)
    else
      var flag := args[i];
      if IsKnownFlag(flag) then
        ValuesPresentNext(args, i);
        if flag == "-o" then ParseFrom(args, i + 2, opts.(outputFolder := args[i + 1]), stod)
        else if flag == "-emin" then ParseFrom(args, i + 2, opts.(minimum := Some(stod(args[i + 1]))), stod)
        else ParseFrom(args, i + 2, opts.(maximum := Some(stod(args[i + 1]))), stod)
      else Err(flag)
  }

  /** The whole loop: argument 0 is the program name, pairs start at 1. It accepts the
      arguments iff every flag is known, and otherwise reports an unknown flag. */
  function ParseArgs(args: seq<string>, stod: string -> real): (r: Result<Options, string>)
    requires ValuesPresent(args)
    ensures r.Ok? <==> forall j :: IsFlagPosition(args, j) ==> IsKnownFlag(args[j])
    ensures r.Err? ==> !IsKnownFlag(r.error)
  {
    ParseFromOkIff(args, 1, Unset, stod);
    ParseFrom(args, 1, Unset, stod)
  }

  /** Reference for "the last one wins": the value that follows the last occurrence of
      flag at a flag position at or after i and before the first unknown flag, if there is one. */
  function LastValueFrom(args: seq<string>, i: nat, flag: string): Option<string>
    requires ValuesPresentFrom(args, i) && i % 2 == 1
    decreases |args| - i
  {
    if i >= |args| || !IsKnownFlag(args[i]) then None
    else
      ValuesPresentNext(args, i);
      match LastValueFrom(args, i + 2, flag)
      case Some(v) => Some(v)
      case None => if args[i] == flag then Some(args[i + 1]) else None
  }

  /** A setting after the loop: the last value given for its flag, or what it was before. */
  function Setting<T>(last: Option<string>, convert: string -> T, before: T): T {
    match last
    case Some(v) => convert(v)
    case None => before
  }

  function Identity(s: string): string {
    s
  }

  function SomeNumber(stod: string -> real): string -> Option<real> {
    s => Some(stod(s))
  }

  /** The loop succeeds exactly when every flag position from i on holds a known flag. */
  lemma {:induction false} ParseFromOkIff(args: seq<string>, i: nat, opts: Options, stod: string -> real)
    requires ValuesPresentFrom(args, i) && i % 2 == 1
    ensures ParseFrom(args, i, opts, stod).Ok?
      <==> forall j :: i <= j && IsFlagPosition(args, j) ==> IsKnownFlag(args[j])
    decreases |args| - i
  {
    if i < |args| {
      if IsKnownFlag(args[i]) {
        ValuesPresentNext(args, i);
        var next := if args[i] == "-o" then opts.(outputFolder := args[i + 1])
          else if args[i] == "-emin" then opts.(minimum := Some(stod(args[i + 1])))
          else opts.(maximum := Some(stod(args[i + 1])));
        ParseFromOkIff(args, i + 2, next, stod);
        assert forall j :: i <= j && IsFlagPosition(args, j) ==> j == i || i + 2 <= j;
      } else {
        assert IsFlagPosition(args, i);
      }
    }
  }

  /** On failure the error is the first unknown flag from position i on. */
  lemma {:induction false} ParseFromErrFirst(args: seq<string>, i: nat, opts: Options, stod: string -> real)
    requires ValuesPresentFrom(args, i) && i % 2 == 1
    requires ParseFrom(args, i, opts, stod).Err?
    ensures exists j :: (
      && i <= j && IsFlagPosition(args, j)
      && args[j] == ParseFrom(args, i, opts, stod).error
      && !IsKnownFlag(args[j])
      && forall k :: i <= k < j && IsFlagPosition(args, k) ==> IsKnownFlag(args[k]))
    decreases |args| - i
  {
    var flag := args[i];
    if IsKnownFlag(flag) {
      ValuesPresentNext(args, i);
      var next := if flag == "-o" then opts.(outputFolder := args[i + 1])
        else if flag == "-emin" then opts.(minimum := Some(stod(args[i + 1])))
        else opts.(maximum := Some(stod(args[i + 1])));
      ParseFromErrFirst(args, i + 2, next, stod);
      var j :| i + 2 <= j && IsFlagPosition(args, j)
        && args[j] == ParseFrom(args, i + 2, next, stod).error
        && !IsKnownFlag(args[j])
        && forall k :: i + 2 <= k < j && IsFlagPosition(args, k) ==> IsKnownFlag(args[k]);
      assert forall k :: i <= k < j && IsFlagPosition(args, k) ==> k == i || i + 2 <= k;
    } else {
      assert IsFlagPosition(args, i);
    }
  }

  /** On success every setting is the value of the last pair for its flag, or the setting
      it had before the loop when its flag never appears. */
  lemma {:induction false} ParseFromLastWins(args: seq<string>, i: nat, opts: Options, stod: string -> real)
    requires ValuesPresentFrom(args, i) && i % 2 == 1
    requires ParseFrom(args, i, opts, stod).Ok?
    ensures var r := ParseFrom(args, i, opts, stod).value;
      && r.outputFolder == Setting(LastValueFrom(args, i, "-o"), Identity, opts.outputFolder)
      && r.minimum == Setting(LastValueFrom(args, i, "-emin"), SomeNumber(stod), opts.minimum)
      && r.maximum == Setting(LastValueFrom(args, i, "-emax"), SomeNumber(stod), opts.maximum)
    decreases |args| - i
  {
    if i < |args| {
      var flag := args[i];
      ValuesPresentNext(args, i);
      if flag == "-o" {
        ParseFromLastWins(args, i + 2, opts.(outputFolder := args[i + 1]), stod);
      } else if flag == "-emin" {
        ParseFromLastWins(args, i + 2, opts.(minimum := Some(stod(args[i + 1]))), stod);
      } else {
        ParseFromLastWins(args, i + 2, opts.(maximum := Some(stod(args[i + 1]))), stod);
      }
    }
  }

  /** The whole argument loop: it succeeds iff every flag is known, the error names the first
      unknown flag, and on success each setting comes from the last pair for its flag. */
  lemma ParseArgsCorrect(args: seq<string>, stod: string -> real)
    requires ValuesPresent(args)
    ensures ParseArgs(args, stod).Ok? <==> forall j :: IsFlagPosition(args, j) ==> IsKnownFlag(args[j])
    ensures ParseArgs(args, stod).Err? ==> exists j :: (
      && IsFlagPosition(args, j)
      && args[j] == ParseArgs(args, stod).error
      && !IsKnownFlag(args[j])
      && forall k :: k < j && IsFlagPosition(args, k) ==> IsKnownFlag(args[k]))
    ensures ParseArgs(args, stod).Ok? ==>
      var r := ParseArgs(args, stod).value;
      && r.outputFolder == Setting(LastValueFrom(args, 1, "-o"), Identity, "")
      && r.minimum == Setting(LastValueFrom(args, 1, "-emin"), SomeNumber(stod), None)
      && r.maximum == Setting(LastValueFrom(args, 1, "-emax"), SomeNumber(stod), None)
  {
    ParseFromOkIff(args, 1, Unset, stod);
    if ParseArgs(args, stod).Err? {
      ParseFromErrFirst(args, 1, Unset, stod);
    } else {
      ParseFromLastWins(args, 1, Unset, stod);
    }
  }

  /** An unknown flag aborts whatever follows it: `prog -x` and `prog -emin 1 -x` stop on `-x`
      without reading past the last argument, and `prog -x a -o` stops on `-x` before it
      reaches the `-o` that has no value. */
  lemma UnpairedUnknownFlagAborts(stod: string -> real)
    ensures ValuesPresent(["prog", "-x"]) && ParseArgs(["prog", "-x"], stod) == Err("-x")
    ensures ValuesPresent(["prog", "-emin", "1", "-x"])
      && ParseArgs(["prog", "-emin", "1", "-x"], stod) == Err("-x")
    ensures ValuesPresent(["prog", "-x", "a", "-o"]) && ParseArgs(["prog", "-x", "a", "-o"], stod) == Err("-x")
  {
    var a := ["prog", "-x"];
    assert !IsKnownFlag(a[1]);
    var b := ["prog", "-emin", "1", "-x"];
    assert !IsKnownFlag(b[3]);
    assert forall j :: 0 <= j < |b| && IsFlagPosition(b, j) ==> j == 1 || j == 3;
    var c := ["prog", "-x", "a", "-o"];
    assert !IsKnownFlag(c[1]);
    assert forall j :: 1 <= j < |c| && IsFlagPosition(c, j) ==> j == 1 || j == 3;
    assert !KnownBetween(c, 1, 3);
  }

  /** A value slot holds a value even when it spells a flag: `prog -o -emin` sets the folder
      to `-emin` and leaves both bounds unset. */
  lemma FlagSpellingAsValue(stod: string -> real)
    ensures ValuesPresent(["prog", "-o", "-emin"])
      && ParseArgs(["prog", "-o", "-emin"], stod) == Ok(Options("-emin", None, None))
  {
    var a := ["prog", "-o", "-emin"];
    assert forall j :: 1 <= j < |a| && IsFlagPosition(a, j) ==> j == 1;
    assert ParseFrom(a, 3, Unset.(outputFolder := "-emin"), stod) == Ok(Options("-emin", None, None));
  }
}

=== FILE: ensemble.dfy ===
/**
 The expansion-factor comparison run: rank 0 (the controller) parses its arguments,
 computes the expansion-factor schedule, sends every worker two tagged doubles, runs
 its own simulation, and gathers one correlation vector per worker in ascending rank
 order; every worker receives its two doubles, derives its expansion factor from
 them, runs, and replies with a length and a vector.
 */
module Ensemble {
  import opened Wrappers
  import opened GridIndex
  import opened Simulation
  import opened CommandLine
  import opened Messaging

  /** Bins of every correlation vector. */
  const NumBins: nat := 101
  /** Grid side N of every rank's simulation. */
  const NumCells: nat := 101
  const ParticlesPerCell: nat := 13
  const BoxWidth: real := 100.0
  const NumParticles: nat := NumCells * NumCells * NumCells * ParticlesPerCell
  /** The mass of one particle: a total mass of 10^5 shared by all particles. */
  const ParticleMass: real := 100000.0 / NumParticles as real
  const TimeMax: real := 1.5
  const TimeStep: real := 0.01

  /** The tags of the four messages of the protocol. */
  const MinimumTag: nat := 0
  const StepTag: nat := 1
  const LengthTag: nat := 2
  const DataTag: nat := 3

  /** Why a run produces no report. `Aborted` is the abort on an unknown flag;
      `Indeterminate` is a bound no flag has set, which the program then reads
      uninitialised; `StepUndefined` is a run with no worker, where the step divides by
      zero; `Overread` is a worker whose correlation has fewer values than the bin count it
      sends, so that its send reads past the end of the vector; the rest are a rank whose
      expected message never arrives or does not fit. */
  datatype Failure =
    | Aborted(flag: string)
    | Indeterminate
    | StepUndefined
    | Stalled(rank: nat)
    | Malformed(rank: nat)
    | Truncated(rank: nat)
    | Overread(rank: nat)

  /** What the controller hands to the writer: the output folder, one expansion-factor label per
      rank and one correlation vector per rank, both in rank order. */
  datatype Report = Report(outputFolder: string, labels: seq<real>, correlations: seq<seq<real>>)

  /** Which received value a worker stores where. `AsWritten` is the program as written: the tag-0
      receive fills the step and the tag-1 receive fills the minimum. `Intended` stores
      each value under the name the controller sent it as. */
  datatype TagBinding = AsWritten | Intended

  /** The grid of every rank's simulation fits the `uint` buffer length, and so does the particle count. */
  lemma GridFits()
    ensures NumCells * NumCells * NumCells < UintLimit
    ensures NumParticles < UintLimit
  {
  }

  /** The simulation every rank builds from its expansion factor and the 13 * 101^3 particles
      of its particle group, which share a total mass of 10^5. */
  function RankSimulation(factor: real, particles: seq<Particle>): (s: Simulation)
    requires |particles| == NumParticles
    ensures BuffersSized(s) && s.cells == NumCells
    ensures GroupMass(s.group) == 100000.0
    ensures |s.density| == 1030301
    ensures s.expansionFactor == factor && s.group == ParticleGroup(ParticleMass, particles)
    ensures s.timeMax == TimeMax && s.timeStep == TimeStep && s.boxWidth == BoxWidth
  {
    GridFits();
    NewSimulation(TimeMax, TimeStep, ParticleGroup(ParticleMass, particles), BoxWidth, NumCells, factor)
  }

  /** The schedule step: the factor range split into P - 1 equal parts, so that P - 1 steps
      lead from the minimum to the maximum. */
  function Step(minimum: real, maximum: real, p: nat): (step: real)
    requires 2 <= p
    ensures (p - 1) as real * step == maximum - minimum
  {
    ScaleBack(maximum - minimum, (p - 1) as real);
    (maximum - minimum) / (p - 1) as real
  }

  /** The expansion factor of rank r: minimum + r * step. */
  function Factor(minimum: real, step: real, r: int): real {
    minimum + r as real * step
  }

  /** The labels the controller records, one per rank: its own factor first, then one label
      appended per worker in ascending rank order. */
  function Labels(minimum: real, step: real, p: nat): (labels: seq<real>)
    requires 1 <= p
    ensures |labels| == p
    ensures forall r :: 0 <= r < p ==> labels[r] == Factor(minimum, step, r)
  {
    LabelsFrom(minimum, step, 1, p, [Factor(minimum, step, 0)])
  }

  /** The label loop over the workers from, from + 1, ..., P - 1, appending each worker's
      factor to the labels recorded so far, one per rank below from. */
  function LabelsFrom(minimum: real, step: real, from: nat, p: nat, recorded: seq<real>): (labels: seq<real>)
    requires |recorded| == from <= p
    requires forall r :: 0 <= r < from ==> recorded[r] == Factor(minimum, step, r)
    ensures |labels| == p
    ensures forall r :: 0 <= r < p ==> labels[r] == Factor(minimum, step, r)
    decreases p - from
  {
    if from == p then recorded
    else LabelsFrom(minimum, step, from + 1, p, recorded + [Factor(minimum, step, from)])
  }

  /** The schedule spans the range: rank 0 gets the minimum and rank P - 1 the maximum. */
  lemma LabelsSpan(minimum: real, maximum: real, p: nat)
    requires 2 <= p
    ensures Labels(minimum, Step(minimum, maximum, p), p)[0] == minimum
    ensures Labels(minimum, Step(minimum, maximum, p), p)[p - 1] == maximum
  {
    var d := (p - 1) as real;
    var step := Step(minimum, maximum, p);
    assert Factor(minimum, step, p - 1) == minimum + d * step;
    assert Labels(minimum, step, p)[p - 1] == Factor(minimum, step, p - 1);
    assert Labels(minimum, step, p)[0] == Factor(minimum, step, 0);
    assert d * step == maximum - minimum;
  }

  lemma ScaleBack(x: real, d: real)
    requires d != 0.0
    ensures d * (x / d) == x
  {
  }

  /** The two messages the controller sends worker w: the minimum on tag 0, then the step on tag 1. */
  function SendsTo(minimum: real, step: real, w: nat): seq<Envelope> {
    [Envelope(0, w, Message(MinimumTag, Scalar(minimum))), Envelope(0, w, Message(StepTag, Scalar(step)))]
  }

  /** What worker w's inbox holds once the controller's two sends have arrived. */
  function SentQueue(minimum: real, step: real): Queue {
    [Message(MinimumTag, Scalar(minimum)), Message(StepTag, Scalar(step))]
  }

  /** The controller's send loop over the workers from, from + 1, ..., P - 1: two messages
      per worker, every one from rank 0 to a worker of that range. */
  function ControllerSends(minimum: real, step: real, from: nat, p: nat): (log: seq<Envelope>)
    ensures from <= p ==> |log| == 2 * (p - from)
    decreases p - from
  {
    if from >= p then [] else SendsTo(minimum, step, from) + ControllerSends(minimum, step, from + 1, p)
  }

  /** The send loop sends two messages per worker, in ascending rank order, minimum first. */
  lemma {:induction false} ControllerSendsOrder(minimum: real, step: real, from: nat, p: nat, w: nat)
    requires from <= w < p
    ensures |ControllerSends(minimum, step, from, p)| == 2 * (p - from)
    ensures ControllerSends(minimum, step, from, p)[2 * (w - from)]
      == Envelope(0, w, Message(MinimumTag, Scalar(minimum)))
    ensures ControllerSends(minimum, step, from, p)[2 * (w - from) + 1]
      == Envelope(0, w, Message(StepTag, Scalar(step)))
    decreases p - from
  {
    if w > from {
      ControllerSendsOrder(minimum, step, from + 1, p, w);
    } else if from + 1 < p {
      ControllerSendsOrder(minimum, step, from + 1, p, from + 1);
    }
  }

  /** Every message of the send loop goes from rank 0 to a worker of the loop's range. */
  lemma {:induction false} ControllerSendsRoute(minimum: real, step: real, from: nat, p: nat)
    ensures forall e :: e in ControllerSends(minimum, step, from, p) ==> e.source == 0 && from <= e.destination < p
    decreases p - from
  {
    if from < p {
      var rest := ControllerSends(minimum, step, from + 1, p);
      ControllerSendsRoute(minimum, step, from + 1, p);
      assert ControllerSends(minimum, step, from, p) == SendsTo(minimum, step, from) + rest;
    }
  }

  lemma ChannelOfPair(a: Envelope, b: Envelope, source: nat, destination: nat)
    ensures Channel([a, b], source, destination)
      == (if a.source == source && a.destination == destination then [a.message] else [])
        + (if b.source == source && b.destination == destination then [b.message] else [])
  {
    assert [a, b][..1] == [a];
    assert [a][..0] == [];
  }

  /** Worker w's incoming channel holds exactly its two messages, minimum first; no other
      rank receives anything from the controller. */
  lemma {:induction false} ControllerChannel(minimum: real, step: real, from: nat, p: nat, w: nat)
    ensures Channel(ControllerSends(minimum, step, from, p), 0, w)
      == if from <= w < p then SentQueue(minimum, step) else []
    decreases p - from
  {
    if from < p {
      var pair := SendsTo(minimum, step, from);
      var rest := ControllerSends(minimum, step, from + 1, p);
      ChannelAppend(pair, rest, 0, w);
      ChannelOfSends(minimum, step, from, w);
      ControllerChannel(minimum, step, from + 1, p, w);
    }
  }

  lemma ChannelOfSends(minimum: real, step: real, v: nat, w: nat)
    ensures Channel(SendsTo(minimum, step, v), 0, w) == if v == w then SentQueue(minimum, step) else []
  {
    var pair := SendsTo(minimum, step, v);
    ChannelOfPair(pair[0], pair[1], 0, w);
  }

  /** A worker's expansion factor, derived from what it receives: first a receive for tag 0,
      then one for tag 1, each value stored as the binding says, then minimum + rank * step. */
  function WorkerFactor(rank: nat, inbox: Queue, binding: TagBinding): (r: Result<real, Failure>)
    ensures r.Err? ==> r.error == Stalled(rank) || r.error == Malformed(rank)
  {
    match Receive(inbox, MinimumTag)
    case None => Err(Stalled(rank))
    case Some(first) =>
      match Receive(first.1, StepTag)
      case None => Err(Stalled(rank))
      case Some(second) =>
        if !first.0.Scalar? || !second.0.Scalar? then Err(Malformed(rank))
        else if binding == AsWritten then Ok(Factor(second.0.x, first.0.x, rank))
        else Ok(Factor(first.0.x, second.0.x, rank))
  }

  /** The factor a worker of the given rank ends up with under the controller's two messages. */
  function BoundFactor(binding: TagBinding, minimum: real, step: real, rank: nat): real {
    if binding == AsWritten then Factor(step, minimum, rank) else Factor(minimum, step, rank)
  }

  /** On the controller's two messages the worker's factor is step + rank * minimum as
      written, and minimum + rank * step, its label, as intended. */
  lemma WorkerFactorOnSends(rank: nat, minimum: real, step: real, binding: TagBinding)
    ensures WorkerFactor(rank, SentQueue(minimum, step), binding)
      == Ok(BoundFactor(binding, minimum, step, rank))
  {
    var m0 := Message(MinimumTag, Scalar(minimum));
    var m1 := Message(StepTag, Scalar(step));
    assert [m0, m1] == [m0] + [m1];
    ReceiveHead(m0, [m1]);
    assert [m1] == [m1] + [];
    ReceiveHead(m1, []);
  }

  /** Worker w's two replies to the controller: the bin count on tag 2, then on tag 3 that
      many values read from the front of its correlation vector. */
  function WorkerReplies(w: nat, correlation: seq<real>): (r: seq<Envelope>)
    requires |correlation| >= NumBins
    ensures |r| == 2 && r[0].source == r[1].source == w && r[0].destination == r[1].destination == 0
    ensures r[0].message.tag == LengthTag && r[1].message.tag == DataTag
    ensures r[0].message.payload.Count? && r[1].message.payload.Values?
    ensures |r[1].message.payload.xs| == r[0].message.payload.n == NumBins
    ensures forall i :: 0 <= i < NumBins ==> r[1].message.payload.xs[i] == correlation[i]
  {
    [Envelope(w, 0, Message(LengthTag, Count(NumBins))), Envelope(w, 0, Message(DataTag, Values(correlation[..NumBins])))]
  }

  /** What the controller's channel from a worker holds once the worker's replies have arrived. */
  function ReplyQueue(correlation: seq<real>): Queue
    requires |correlation| >= NumBins
  {
    [Message(LengthTag, Count(NumBins)), Message(DataTag, Values(correlation[..NumBins]))]
  }

  /** The factor each worker derives from its inbox in the log of the controller's sends. */
  function WorkerDerive(sends: seq<Envelope>, binding: TagBinding): nat -> Result<real, Failure> {
    (w: nat) => WorkerFactor(w, Channel(sends, 0, w), binding)
  }

  /** Workers from, ..., P - 1, where worker w derives its factor as derived(w) says, each reply
      with the correlation vector of their run; a failure is that of the first worker that
      could not derive its factor or whose correlation is shorter than the bin count. */
  function WorkerLog(derived: nat -> Result<real, Failure>, from: nat, p: nat, corr: real -> seq<real>)
    : (r: Result<seq<Envelope>, Failure>)
    ensures r.Ok? && from <= p ==> |r.value| == 2 * (p - from)
    ensures r.Err? ==> exists w :: (
      && from <= w < p
      && (derived(w) == Err(r.error) || (derived(w).Ok? && r.error == Overread(w)))
      && forall v :: from <= v < w ==> derived(v).Ok?)
    decreases p - from
  {
    if from >= p then Ok([])
    else
      match derived(from)
      case Err(e) => Err(e)
      case Ok(f) =>
        if |corr(f)| < NumBins then Err(Overread(from))
        else
          match WorkerLog(derived, from + 1, p, corr)
          case Err(e) => Err(e)
          case Ok(rest) => Ok(WorkerReplies(from, corr(f)) + rest)
  }

  /** The vector every worker w sends under the controller's messages: the correlation of
      the factor it derives from them. */
  function WorkerVectors(binding: TagBinding, minimum: real, step: real, corr: real -> seq<real>): nat -> seq<real> {
    (w: nat) => corr(BoundFactor(binding, minimum, step, w))
  }

  /** Reference for the replies of workers from, ..., P - 1 when worker w sends vectors(w). */
  function ExpectedReplies(vectors: nat -> seq<real>, from: nat, p: nat): seq<Envelope>
    requires forall w :: from <= w < p ==> |vectors(w)| >= NumBins
    decreases p - from
  {
    if from >= p then []
    else WorkerReplies(from, vectors(from)) + ExpectedReplies(vectors, from + 1, p)
  }

  /** Under the controller's sends every worker replies, each with the correlation of the
      factor it derives from its two messages. */
  lemma {:induction false} WorkersReply(derived: nat -> Result<real, Failure>, minimum: real, step: real,
                                        from: nat, p: nat, binding: TagBinding, corr: real -> seq<real>)
    requires forall w :: from <= w < p ==> derived(w) == Ok(BoundFactor(binding, minimum, step, w))
    requires forall w :: from <= w < p ==> |corr(BoundFactor(binding, minimum, step, w))| >= NumBins
    ensures WorkerLog(derived, from, p, corr) == Ok(ExpectedReplies(WorkerVectors(binding, minimum, step, corr), from, p))
    decreases p - from
  {
    if from < p {
      WorkersReply(derived, minimum, step, from + 1, p, binding, corr);
    }
  }

  /** Under the controller's sends, when some worker's correlation has fewer values than the
      bin count, the workers' replies fail on the first such worker. */
  lemma {:induction false} WorkersOverread(derived: nat -> Result<real, Failure>, minimum: real, step: real,
                                           from: nat, p: nat, binding: TagBinding, corr: real -> seq<real>)
    requires forall w :: from <= w < p ==> derived(w) == Ok(BoundFactor(binding, minimum, step, w))
    requires exists w :: from <= w < p && |corr(BoundFactor(binding, minimum, step, w))| < NumBins
    ensures var r := WorkerLog(derived, from, p, corr);
      && r.Err? && r.error.Overread? && from <= r.error.rank < p
      && |corr(BoundFactor(binding, minimum, step, r.error.rank))| < NumBins
      && forall v :: from <= v < r.error.rank ==> |corr(BoundFactor(binding, minimum, step, v))| >= NumBins
    decreases p - from
  {
    var w :| from <= w < p && |corr(BoundFactor(binding, minimum, step, w))| < NumBins;
    if |corr(BoundFactor(binding, minimum, step, from))| >= NumBins {
      assert from + 1 <= w;
      WorkersOverread(derived, minimum, step, from + 1, p, binding, corr);
    }
  }

  /** The channel from worker w to the controller holds the bin count and w's vector. */
  lemma {:induction false} RepliesChannel(vectors: nat -> seq<real>, from: nat, p: nat, w: nat)
    requires forall v :: from <= v < p ==> |vectors(v)| >= NumBins
    ensures Channel(ExpectedReplies(vectors, from, p), w, 0) == if from <= w < p then ReplyQueue(vectors(w)) else []
    decreases p - from
  {
    if from < p {
      ChannelAppend(WorkerReplies(from, vectors(from)), ExpectedReplies(vectors, from + 1, p), w, 0);
      ChannelOfReplies(from, vectors(from), w);
      RepliesChannel(vectors, from + 1, p, w);
    }
  }

  lemma ChannelOfReplies(v: nat, xs: seq<real>, w: nat)
    requires |xs| >= NumBins
    ensures Channel(WorkerReplies(v, xs), w, 0) == if v == w then ReplyQueue(xs) else []
  {
    var pair := WorkerReplies(v, xs);
    ChannelOfPair(pair[0], pair[1], w, 0);
  }

  /** The controller's two receives from one worker: the length on tag 2, a buffer of that
      many zeros, and a receive for tag 3 into it. A vector longer than the announced length
      does not fit the buffer. */
  function ReceiveReply(q: Queue, rank: nat): (r: Result<seq<real>, Failure>)
    ensures r.Err? ==> r.error == Stalled(rank) || r.error == Malformed(rank) || r.error == Truncated(rank)
  {
    match Receive(q, LengthTag)
    case None => Err(Stalled(rank))
    case Some(length) =>
      match Receive(length.1, DataTag)
      case None => Err(Stalled(rank))
      case Some(data) =>
        if !length.0.Count? || !data.0.Values? then Err(Malformed(rank))
        else if |data.0.xs| > length.0.n then Err(Truncated(rank))
        else Ok(data.0.xs + seq(length.0.n - |data.0.xs|, _ => 0.0))
  }

  /** On a length followed by a vector, the receive yields the vector padded with zeros to
      the length, and fails only when the vector is longer than announced. */
  lemma ReceiveReplyOnPair(n: nat, xs: seq<real>, rank: nat)
    ensures ReceiveReply([Message(LengthTag, Count(n)), Message(DataTag, Values(xs))], rank)
      == if |xs| <= n then Ok(xs + seq(n - |xs|, _ => 0.0)) else Err(Truncated(rank))
    ensures |xs| == n ==> ReceiveReply([Message(LengthTag, Count(n)), Message(DataTag, Values(xs))], rank) == Ok(xs)
  {
    var m2 := Message(LengthTag, Count(n));
    var m3 := Message(DataTag, Values(xs));
    assert [m2, m3] == [m2] + [m3];
    ReceiveHead(m2, [m3]);
    assert [m3] == [m3] + [];
    ReceiveHead(m3, []);
    assert xs + seq(0, _ => 0.0) == xs;
  }

  /** What the controller's receives from worker w return, given every send of the workers. */
  function ControllerReceive(replies: seq<Envelope>): nat -> Result<seq<real>, Failure> {
    (w: nat) => ReceiveReply(Channel(replies, w, 0), w)
  }

  /** The controller's gather loop over ranks from, ..., P - 1, in ascending rank order, with
      received(w) what the receives from rank w return. On success it holds what each rank's
      receives returned; a failure is that of the first rank whose receives fail. */
  function Gather(received: nat -> Result<seq<real>, Failure>, from: nat, p: nat): (r: Result<seq<seq<real>>, Failure>)
    ensures r.Ok? && from <= p ==> |r.value| == p - from
    ensures r.Ok? ==> forall w :: from <= w < p ==> received(w) == Ok(r.value[w - from])
    ensures r.Err? ==> exists w :: (
      && from <= w < p && received(w) == Err(r.error)
      && forall v :: from <= v < w ==> received(v).Ok?)
    decreases p - from
  {
    if from >= p then Ok([])
    else
      match received(from)
      case Err(e) => Err(e)
      case Ok(vector) =>
        match Gather(received, from + 1, p)
        case Err(e) => Err(e)
        case Ok(more) => Ok([vector] + more)
  }

  /** The gather succeeds exactly when every rank's receives do. */
  lemma GatherOkIff(received: nat -> Result<seq<real>, Failure>, from: nat, p: nat)
    ensures Gather(received, from, p).Ok? <==> forall w :: from <= w < p ==> received(w).Ok?
  {
  }

  /** When rank w's receives return vectors(w) for every worker w, the gather returns those
      vectors in ascending rank order. */
  lemma GatherCollects(received: nat -> Result<seq<real>, Failure>, vectors: nat -> seq<real>, p: nat)
    requires 1 <= p
    requires forall w :: 1 <= w < p ==> received(w) == Ok(vectors(w))
    ensures Gather(received, 1, p).Ok?
    ensures forall w :: 1 <= w < p ==> Gather(received, 1, p).value[w - 1] == vectors(w)
  {
    GatherOkIff(received, 1, p);
  }

  /** When every worker w replies from a vector of at least NumBins values, the controller's
      receives from w return the first NumBins values of that vector. */
  lemma RepliesReceived(vectors: nat -> seq<real>, p: nat)
    requires forall w :: 1 <= w < p ==> |vectors(w)| >= NumBins
    ensures forall w :: 1 <= w < p ==> ControllerReceive(ExpectedReplies(vectors, 1, p))(w) == Ok(vectors(w)[..NumBins])
  {
    forall w | 1 <= w < p
      ensures ControllerReceive(ExpectedReplies(vectors, 1, p))(w) == Ok(vectors(w)[..NumBins])
    {
      RepliesChannel(vectors, 1, p, w);
      ReceiveReplyOnPair(NumBins, vectors(w)[..NumBins], w);
    }
  }

  /** The message exchange of a run with P ranks: the controller's sends, every worker's
      replies, and the controller's gather; a failure names the worker rank it stalls on. */
  function Exchange(minimum: real, step: real, p: nat, binding: TagBinding, corr: real -> seq<real>)
    : (r: Result<seq<seq<real>>, Failure>)
    ensures r.Ok? && 1 <= p ==> |r.value| == p - 1
    ensures r.Err? ==> (
      && (r.error.Stalled? || r.error.Malformed? || r.error.Truncated? || r.error.Overread?)
      && 1 <= r.error.rank < p)
  {
    match WorkerLog(WorkerDerive(ControllerSends(minimum, step, 1, p), binding), 1, p, corr)
    case Err(e) => Err(e)
    case Ok(replies) => Gather(ControllerReceive(replies), 1, p)
  }

  /** The whole run as the controller sees it, for P ranks: a report with one label and one
      vector per rank, or the failure that stops it. */
  function RunEnsemble(args: seq<string>, p: nat, stod: string -> real, corr: real -> seq<real>, binding: TagBinding)
    : (r: Result<Report, Failure>)
    requires ValuesPresent(args) && 1 <= p
    ensures r.Ok? ==> 2 <= p && |r.value.labels| == |r.value.correlations| == p
    ensures r.Err? && r.error.Aborted? ==> !IsKnownFlag(r.error.flag)
    ensures r.Err? && !r.error.Aborted? && !r.error.Indeterminate? && !r.error.StepUndefined?
      ==> 1 <= r.error.rank < p
  {
    match ParseArgs(args, stod)
    case Err(flag) => Err(Aborted(flag))
    case Ok(opts) =>
      if opts.minimum.None? || opts.maximum.None? then Err(Indeterminate)
      else if p < 2 then Err(StepUndefined)
      else
        var minimum := opts.minimum.value;
        var step := Step(minimum, opts.maximum.value, p);
        match Exchange(minimum, step, p, binding, corr)
        case Err(e) => Err(e)
        case Ok(gathered) =>
          Ok(Report(opts.outputFolder, Labels(minimum, step, p), [corr(Factor(minimum, step, 0))] + gathered))
  }

  /** The run aborts exactly when the argument loop meets an unknown flag, and then it
      names the first one. */
  lemma RunAborts(args: seq<string>, p: nat, stod: string -> real, corr: real -> seq<real>, binding: TagBinding)
    requires ValuesPresent(args) && 1 <= p
    ensures RunEnsemble(args, p, stod, corr, binding).Err? && RunEnsemble(args, p, stod, corr, binding).error.Aborted?
      <==> exists j :: IsFlagPosition(args, j) && !IsKnownFlag(args[j])
    ensures RunEnsemble(args, p, stod, corr, binding).Err? && RunEnsemble(args, p, stod, corr, binding).error.Aborted?
      ==> exists j :: (
        && IsFlagPosition(args, j)
        && args[j] == RunEnsemble(args, p, stod, corr, binding).error.flag
        && !IsKnownFlag(args[j])
        && forall k :: k < j && IsFlagPosition(args, k) ==> IsKnownFlag(args[k]))
  {
    ParseArgsCorrect(args, stod);
  }

  /** When every worker's correlation has at least NumBins values, the exchange completes, and
      entry w - 1 holds the first NumBins values of the correlation of worker w's factor. */
  lemma ExchangeCompletes(minimum: real, step: real, p: nat, binding: TagBinding, corr: real -> seq<real>)
    requires 1 <= p
    requires forall w :: 1 <= w < p ==> |corr(BoundFactor(binding, minimum, step, w))| >= NumBins
    ensures Exchange(minimum, step, p, binding, corr).Ok?
    ensures forall w :: 1 <= w < p ==>
      Exchange(minimum, step, p, binding, corr).value[w - 1] == corr(BoundFactor(binding, minimum, step, w))[..NumBins]
  {
    var derived := WorkerDerive(ControllerSends(minimum, step, 1, p), binding);
    ControllerInboxes(minimum, step, p, binding);
    WorkersReply(derived, minimum, step, 1, p, binding, corr);
    var vectors := WorkerVectors(binding, minimum, step, corr);
    forall w | 1 <= w < p
      ensures |vectors(w)| >= NumBins
    {
      assert vectors(w) == corr(BoundFactor(binding, minimum, step, w));
    }
    RepliesReceived(vectors, p);
    var received := ControllerReceive(ExpectedReplies(vectors, 1, p));
    var prefixes := (w: nat) => if |vectors(w)| >= NumBins then vectors(w)[..NumBins] else [];
    forall w | 1 <= w < p
      ensures received(w) == Ok(prefixes(w))
    {
    }
    GatherCollects(received, prefixes, p);
    assert Exchange(minimum, step, p, binding, corr) == Gather(received, 1, p);
    forall w | 1 <= w < p
      ensures Gather(received, 1, p).value[w - 1] == corr(BoundFactor(binding, minimum, step, w))[..NumBins]
    {
      assert vectors(w) == corr(BoundFactor(binding, minimum, step, w));
    }
  }

  /** Every worker's inbox holds the controller's two messages, so every worker derives the
      factor its binding gives. */
  lemma ControllerInboxes(minimum: real, step: real, p: nat, binding: TagBinding)
    ensures forall w :: 1 <= w < p ==>
      WorkerDerive(ControllerSends(minimum, step, 1, p), binding)(w) == Ok(BoundFactor(binding, minimum, step, w))
  {
    forall w | 1 <= w < p
      ensures WorkerDerive(ControllerSends(minimum, step, 1, p), binding)(w) == Ok(BoundFactor(binding, minimum, step, w))
    {
      ControllerChannel(minimum, step, 1, p, w);
      WorkerFactorOnSends(w, minimum, step, binding);
    }
  }

  /** The exchange completes exactly when every worker's correlation has at least NumBins
      values; otherwise it fails with the overread of the first worker whose has fewer. */
  lemma ExchangeOkIff(minimum: real, step: real, p: nat, binding: TagBinding, corr: real -> seq<real>)
    requires 1 <= p
    ensures Exchange(minimum, step, p, binding, corr).Ok?
      <==> forall w :: 1 <= w < p ==> |corr(BoundFactor(binding, minimum, step, w))| >= NumBins
    ensures var r := Exchange(minimum, step, p, binding, corr);
      r.Err? ==> (
        && r.error.Overread? && 1 <= r.error.rank < p
        && |corr(BoundFactor(binding, minimum, step, r.error.rank))| < NumBins
        && forall v :: 1 <= v < r.error.rank ==> |corr(BoundFactor(binding, minimum, step, v))| >= NumBins)
  {
    if forall w :: 1 <= w < p ==> |corr(BoundFactor(binding, minimum, step, w))| >= NumBins {
      ExchangeCompletes(minimum, step, p, binding, corr);
    } else {
      ControllerInboxes(minimum, step, p, binding);
      WorkersOverread(WorkerDerive(ControllerSends(minimum, step, 1, p), binding), minimum, step, 1, p, binding, corr);
    }
  }

  /** A run whose arguments are accepted and set both bounds, with at least one worker, always
      completes: one label and one vector per rank, the labels spanning the range, rank 0's
      vector from the minimum and rank w's vector from the factor w derives from its messages. */
  lemma RunCompletes(args: seq<string>, p: nat, stod: string -> real, corr: real -> seq<real>, binding: TagBinding,
                     minimum: real, maximum: real)
    requires ValuesPresent(args) && 2 <= p
    requires forall f :: |corr(f)| >= NumBins
    requires ParseArgs(args, stod).Ok?
    requires ParseArgs(args, stod).value.minimum == Some(minimum)
    requires ParseArgs(args, stod).value.maximum == Some(maximum)
    ensures var r := RunEnsemble(args, p, stod, corr, binding);
      && r.Ok?
      && r.value.outputFolder == ParseArgs(args, stod).value.outputFolder
      && r.value.labels == Labels(minimum, Step(minimum, maximum, p), p)
      && r.value.labels[0] == minimum && r.value.labels[p - 1] == maximum
      && |r.value.correlations| == p
      && r.value.correlations[0] == corr(minimum)
      && forall w :: 1 <= w < p ==>
        r.value.correlations[w] == corr(BoundFactor(binding, minimum, Step(minimum, maximum, p), w))[..NumBins]
  {
    var step := Step(minimum, maximum, p);
    ExchangeCompletes(minimum, step, p, binding, corr);
    var gathered := Exchange(minimum, step, p, binding, corr).value;
    var correlations := [corr(Factor(minimum, step, 0))] + gathered;
    assert RunEnsemble(args, p, stod, corr, binding)
      == Ok(Report(ParseArgs(args, stod).value.outputFolder, Labels(minimum, step, p), correlations));
    forall w | 1 <= w < p
      ensures correlations[w] == corr(BoundFactor(binding, minimum, step, w))[..NumBins]
    {
      assert correlations[w] == gathered[w - 1];
    }
    LabelsSpan(minimum, maximum, p);
    assert Factor(minimum, step, 0) == minimum;
  }

  /** With a correlation of NumBins values for every factor, a run completes exactly when the
      arguments are accepted, set both bounds and leave at least one worker; otherwise it
      fails on the first of these that does not hold, and never in the exchange. */
  lemma RunOkIff(args: seq<string>, p: nat, stod: string -> real, corr: real -> seq<real>, binding: TagBinding)
    requires ValuesPresent(args) && 1 <= p
    requires forall f :: |corr(f)| >= NumBins
    ensures RunEnsemble(args, p, stod, corr, binding).Ok? <==> (
      && ParseArgs(args, stod).Ok? && ParseArgs(args, stod).value.minimum.Some?
      && ParseArgs(args, stod).value.maximum.Some? && 2 <= p)
    ensures ParseArgs(args, stod).Ok?
      && (ParseArgs(args, stod).value.minimum.None? || ParseArgs(args, stod).value.maximum.None?)
      ==> RunEnsemble(args, p, stod, corr, binding) == Err(Indeterminate)
    ensures ParseArgs(args, stod).Ok?
      && ParseArgs(args, stod).value.minimum.Some? && ParseArgs(args, stod).value.maximum.Some? && p < 2
      ==> RunEnsemble(args, p, stod, corr, binding) == Err(StepUndefined)
  {
    var parsed := ParseArgs(args, stod);
    if parsed.Ok? && parsed.value.minimum.Some? && parsed.value.maximum.Some? && 2 <= p {
      RunCompletes(args, p, stod, corr, binding, parsed.value.minimum.value, parsed.value.maximum.value);
    }
  }

  /** As written, every worker's correlation is that of the factor with minimum and step
      exchanged, step + rank * minimum. */
  lemma RunAsWritten(args: seq<string>, p: nat, stod: string -> real, corr: real -> seq<real>,
                     minimum: real, maximum: real)
    requires ValuesPresent(args) && 2 <= p
    requires forall f :: |corr(f)| >= NumBins
    requires ParseArgs(args, stod).Ok?
    requires ParseArgs(args, stod).value.minimum == Some(minimum)
    requires ParseArgs(args, stod).value.maximum == Some(maximum)
    ensures var r := RunEnsemble(args, p, stod, corr, AsWritten);
      && r.Ok? && |r.value.correlations| == p
      && forall w :: 1 <= w < p ==>
        r.value.correlations[w] == corr(Factor(Step(minimum, maximum, p), minimum, w))[..NumBins]
  {
    RunCompletes(args, p, stod, corr, AsWritten, minimum, maximum);
  }

  /** With each value stored under the name it was sent as, every correlation belongs to
      the factor of its own label. */
  lemma RunIntended(args: seq<string>, p: nat, stod: string -> real, corr: real -> seq<real>,
                    minimum: real, maximum: real)
    requires ValuesPresent(args) && 2 <= p
    requires forall f :: |corr(f)| >= NumBins
    requires ParseArgs(args, stod).Ok?
    requires ParseArgs(args, stod).value.minimum == Some(minimum)
    requires ParseArgs(args, stod).value.maximum == Some(maximum)
    ensures var r := RunEnsemble(args, p, stod, corr, Intended);
      && r.Ok?
      && |r.value.labels| == |r.value.correlations| == p
      && r.value.correlations[0] == corr(r.value.labels[0])
      && forall w :: 1 <= w < p ==> r.value.correlations[w] == corr(r.value.labels[w])[..NumBins]
  {
    RunCompletes(args, p, stod, corr, Intended, minimum, maximum);
  }

  /** As written, a worker's factor equals its label only for rank 1 or when the minimum
      happens to equal the step. */
  lemma AsWrittenMatchesLabelIff(minimum: real, step: real, rank: nat)
    ensures BoundFactor(AsWritten, minimum, step, rank) == Factor(minimum, step, rank)
      <==> rank == 1 || minimum == step
  {
    var r := rank as real;
    Exchanged(minimum, step, r);
    ZeroProduct(r - 1.0, minimum - step);
    assert r - 1.0 == 0.0 <==> rank == 1;
  }

  lemma Exchanged(minimum: real, step: real, r: real)
    ensures (step + r * minimum) - (minimum + r * step) == (r - 1.0) * (minimum - step)
  {
  }

  lemma ZeroProduct(a: real, b: real)
    ensures a * b == 0.0 <==> a == 0.0 || b == 0.0
  {
  }

  /** With -emin 1 -emax 2 on three ranks the step is 0.5: rank 2 is labelled 2.0 but runs
      with factor 0.5 + 2 * 1 = 2.5. */
  lemma AsWrittenCounterexample()
    ensures Step(1.0, 2.0, 3) == 0.5
    ensures Labels(1.0, 0.5, 3)[2] == 2.0
    ensures BoundFactor(AsWritten, 1.0, 0.5, 2) == 2.5
    ensures BoundFactor(Intended, 1.0, 0.5, 2) == 2.0
  {
    assert Labels(1.0, 0.5, 3)[2] == Factor(1.0, 0.5, 2);
  }
}

=== FILE: grid_index.dfy ===
/**
 Index arithmetic of the cubical particle-mesh grid: the cell a unit-cube
 coordinate falls into, and the row-major flat index `k + N*(j + N*i)` that
 addresses cell (i, j, k) of an N x N x N grid stored as one buffer of N^3 cells.
 */
module GridIndex {

  /** Values of the C++ `uint` the program uses for buffer lengths and indices are below this bound. */
  const UintLimit: nat := 0x1_0000_0000

  /** True iff (i, j, k) names a cell of the N x N x N grid. */
  predicate InGrid(n: nat, i: int, j: int, k: int) {
    0 <= i < n && 0 <= j < n && 0 <= k < n
  }

  /** The flat buffer index of cell (i, j, k); every cell of the grid lands inside
      the buffer of N^3 entries. It is defined for every triple so that a loop may
      describe its progress one step past the last cell. */
  function FlatIndex(n: nat, i: nat, j: nat, k: nat): (idx: nat)
    ensures InGrid(n, i, j, k) ==> idx < n * n * n
  {
    var idx := k + n * (j + n * i);
    if InGrid(n, i, j, k) then RowMajorBound(n, i, j, k); idx else idx
  }

  /** The cell that follows c in row-major order: the last index runs fastest. */
  function Successor(n: nat, c: (nat, nat, nat)): (nat, nat, nat) {
    if c.2 + 1 < n then (c.0, c.1, c.2 + 1)
    else if c.1 + 1 < n then (c.0, c.1 + 1, 0)
    else (c.0 + 1, 0, 0)
  }

  /** The cell stored at flat index idx: the idx-th cell in row-major order.
      It is the inverse of FlatIndex on the buffer of N^3 cells. */
  function CellAt(n: nat, idx: nat): (c: (nat, nat, nat))
    requires idx < n * n * n
    ensures InGrid(n, c.0, c.1, c.2)
    ensures FlatIndex(n, c.0, c.1, c.2) == idx
  {
    if idx == 0 then
      assert 0 < n;
      (0, 0, 0)
    else
      var p := CellAt(n, idx - 1);
      var c := Successor(n, p);
      SuccessorIndex(n, p.0, p.1, p.2);
      c
  }

  /** The cell along one axis of a coordinate in [0, 1): `floor(p * N)`, which is always a valid cell. */
  function CellOf(p: real, n: nat): (c: nat)
    requires 0.0 <= p < 1.0 && 0 < n
    ensures c < n
    ensures c as real <= p * n as real < c as real + 1.0
  {
    assert p * n as real < n as real;
    (p * n as real).Floor
  }

  lemma MulLe(a: nat, b: nat, c: nat)
    requires a <= b
    ensures a * c <= b * c
  {
  }

  /** The offset of a cell inside its plane is below the plane size N^2. */
  lemma InPlane(n: nat, j: nat, k: nat)
    requires j < n && k < n
    ensures k + n * j < n * n
  {
    MulLe(j + 1, n, n);
  }

  lemma RowMajorBound(n: nat, i: nat, j: nat, k: nat)
    requires InGrid(n, i, j, k)
    ensures k + n * (j + n * i) < n * n * n
  {
    var m := n * n;
    InPlane(n, j, k);
    assert n * (j + n * i) == n * j + m * i;
    MulLe(i + 1, n, m);
    assert (i + 1) * m == m * i + m;
  }

  /** The flat index of the successor of a cell in the grid is one more than the cell's own. */
  lemma SuccessorIndex(n: nat, i: nat, j: nat, k: nat)
    requires InGrid(n, i, j, k)
    ensures var c := Successor(n, (i, j, k));
      c.1 < n && c.2 < n && FlatIndex(n, c.0, c.1, c.2) == FlatIndex(n, i, j, k) + 1
  {
    if k + 1 < n {
    } else if j + 1 < n {
      assert n * (j + 1 + n * i) == n + n * (j + n * i);
    } else {
      assert n * (0 + n * (i + 1)) == n + n * ((n - 1) + n * i);
    }
  }

  /** Two base-N digit pairs with the same value are the same pair. */
  lemma DigitsUnique(n: nat, t: nat, k: nat, t': nat, k': nat)
    requires k < n && k' < n && k + n * t == k' + n * t'
    ensures t == t' && k == k'
  {
    if t < t' {
      MulLe(t + 1, t', n);
      assert false;
    } else if t' < t {
      MulLe(t' + 1, t, n);
      assert false;
    }
  }

  /** Distinct cells never share a flat index: with the bound FlatIndex ensures and
      CellAt, FlatIndex is a bijection from the grid onto [0, N^3). */
  lemma FlatIndexInjective(n: nat, i: nat, j: nat, k: nat, i': nat, j': nat, k': nat)
    requires InGrid(n, i, j, k) && InGrid(n, i', j', k')
    requires FlatIndex(n, i, j, k) == FlatIndex(n, i', j', k')
    ensures i == i' && j == j' && k == k'
  {
    DigitsUnique(n, j + n * i, k, j' + n * i', k');
    DigitsUnique(n, i, j, i', j');
  }

  /** CellAt recovers the cell from its flat index. */
  lemma CellAtFlatIndex(n: nat, i: nat, j: nat, k: nat)
    requires InGrid(n, i, j, k)
    ensures CellAt(n, FlatIndex(n, i, j, k)) == (i, j, k)
  {
    var c := CellAt(n, FlatIndex(n, i, j, k));
    FlatIndexInjective(n, i, j, k, c.0, c.1, c.2);
  }

  /** Stepping past the last column of a row lands on the first column of the next row. */
  lemma RowCarry(n: nat, i: nat, j: nat)
    ensures FlatIndex(n, i, j, n) == FlatIndex(n, i, j + 1, 0)
  {
  }

  /** Stepping past the last row of a plane lands on the first cell of the next plane. */
  lemma PlaneCarry(n: nat, i: nat)
    ensures FlatIndex(n, i, n, 0) == FlatIndex(n, i + 1, 0, 0)
  {
  }

  /** One plane past the last plane is one past the last cell of the buffer. */
  lemma GridEnd(n: nat)
    ensures FlatIndex(n, n, 0, 0) == n * n * n
  {
  }
}

=== FILE: histogram.dfy ===
/**
 Occupancy histograms over the N x N x N grid, kept as the program keeps them:
 a vector of planes, each a vector of rows, each a vector of cell counts.
 The module relates the nested layout to the flat buffer layout of GridIndex.
 */
module Histogram {
  import opened GridIndex

  type Grid3 = seq<seq<seq<nat>>>

  /** True iff g has a planes of b rows of c cells each. */
  predicate IsBox(g: Grid3, a: nat, b: nat, c: nat) {
    && |g| == a
    && (forall i :: 0 <= i < a ==> |g[i]| == b)
    && (forall i, j :: 0 <= i < a && 0 <= j < b ==> |g[i][j]| == c)
  }

  /** Total of one row of counts. */
  function RowSum(s: seq<nat>): nat {
    if |s| == 0 then 0 else s[0] + RowSum(s[1..])
  }

  /** Total of one plane of counts. */
  function PlaneSum(p: seq<seq<nat>>): nat {
    if |p| == 0 then 0 else RowSum(p[0]) + PlaneSum(p[1..])
  }

  /** Total of a whole histogram. */
  function GridSum(g: Grid3): nat {
    if |g| == 0 then 0 else PlaneSum(g[0]) + GridSum(g[1..])
  }

  /** The rows of a plane laid end to end. */
  function FlattenPlane(p: seq<seq<nat>>): seq<nat> {
    if |p| == 0 then [] else p[0] + FlattenPlane(p[1..])
  }

  /** The planes of a histogram laid end to end, in the order of the flat buffer. */
  function Flatten(g: Grid3): seq<nat> {
    if |g| == 0 then [] else FlattenPlane(g[0]) + Flatten(g[1..])
  }

  /** The histogram of N x N x N empty cells. */
  function EmptyHistogram(n: nat): (g: Grid3)
    ensures IsBox(g, n, n, n)
    ensures forall i, j, k :: InGrid(n, i, j, k) ==> g[i][j][k] == 0
    ensures GridSum(g) == 0
  {
    var g := seq(n, _ => seq(n, _ => seq(n, _ => 0)));
    ZeroGridSum(g);
    g
  }

  /** A histogram whose every cell is zero sums to zero. */
  lemma {:induction false} ZeroGridSum(g: Grid3)
    requires forall i, j, k :: 0 <= i < |g| && 0 <= j < |g[i]| && 0 <= k < |g[i][j]| ==> g[i][j][k] == 0
    ensures GridSum(g) == 0
  {
    if |g| > 0 {
      ZeroPlaneSum(g[0]);
      ZeroGridSum(g[1..]);
    }
  }

  lemma {:induction false} ZeroPlaneSum(p: seq<seq<nat>>)
    requires forall j, k :: 0 <= j < |p| && 0 <= k < |p[j]| ==> p[j][k] == 0
    ensures PlaneSum(p) == 0
  {
    if |p| > 0 {
      ZeroRowSum(p[0]);
      ZeroPlaneSum(p[1..]);
    }
  }

  lemma {:induction false} ZeroRowSum(s: seq<nat>)
    requires forall k :: 0 <= k < |s| ==> s[k] == 0
    ensures RowSum(s) == 0
  {
    if |s| > 0 {
      ZeroRowSum(s[1..]);
    }
  }

  /** Adds one to cell (i, j, k): the count of exactly one cell goes up, and the total with it. */
  function Increment(g: Grid3, n: nat, i: nat, j: nat, k: nat): (r: Grid3)
    requires IsBox(g, n, n, n) && InGrid(n, i, j, k)
    ensures IsBox(r, n, n, n)
    ensures r[i][j][k] == g[i][j][k] + 1
    ensures forall a, b, c :: InGrid(n, a, b, c) && (a, b, c) != (i, j, k) ==> r[a][b][c] == g[a][b][c]
    ensures GridSum(r) == GridSum(g) + 1
  {
    var row := g[i][j][k := g[i][j][k] + 1];
    var plane := g[i][j := row];
    RowSumUpdate(g[i][j], k, g[i][j][k] + 1);
    PlaneSumUpdate(g[i], j, row);
    GridSumUpdate(g, i, plane);
    g[i := plane]
  }

  lemma {:induction false} RowSumUpdate(s: seq<nat>, k: nat, v: nat)
    requires k < |s|
    ensures RowSum(s[k := v]) + s[k] == RowSum(s) + v
  {
    if k > 0 {
      assert s[k := v][1..] == s[1..][k - 1 := v];
      RowSumUpdate(s[1..], k - 1, v);
    }
  }

  lemma {:induction false} PlaneSumUpdate(p: seq<seq<nat>>, j: nat, row: seq<nat>)
    requires j < |p|
    ensures PlaneSum(p[j := row]) + RowSum(p[j]) == PlaneSum(p) + RowSum(row)
  {
    if j > 0 {
      assert p[j := row][1..] == p[1..][j - 1 := row];
      PlaneSumUpdate(p[1..], j - 1, row);
    }
  }

  lemma {:induction false} GridSumUpdate(g: Grid3, i: nat, plane: seq<seq<nat>>)
    requires i < |g|
    ensures GridSum(g[i := plane]) + PlaneSum(g[i]) == GridSum(g) + PlaneSum(plane)
  {
    if i > 0 {
      assert g[i := plane][1..] == g[1..][i - 1 := plane];
      GridSumUpdate(g[1..], i - 1, plane);
    }
  }

  /** Summing is additive over concatenation. */
  lemma {:induction false} RowSumAppend(a: seq<nat>, b: seq<nat>)
    ensures RowSum(a + b) == RowSum(a) + RowSum(b)
  {
    if |a| > 0 {
      assert (a + b)[1..] == a[1..] + b;
      RowSumAppend(a[1..], b);
    } else {
      assert a + b == b;
    }
  }

  lemma {:induction false} FlattenPlaneSum(p: seq<seq<nat>>)
    ensures RowSum(FlattenPlane(p)) == PlaneSum(p)
  {
    if |p| > 0 {
      RowSumAppend(p[0], FlattenPlane(p[1..]));
      FlattenPlaneSum(p[1..]);
    }
  }

  /** Flattening keeps the total: the flat buffer holds the same counts as the nested histogram. */
  lemma {:induction false} FlattenSum(g: Grid3)
    ensures RowSum(Flatten(g)) == GridSum(g)
  {
    if |g| > 0 {
      RowSumAppend(FlattenPlane(g[0]), Flatten(g[1..]));
      FlattenPlaneSum(g[0]);
      FlattenSum(g[1..]);
    }
  }

  lemma {:induction false} FlattenPlaneLength(p: seq<seq<nat>>, b: nat, c: nat)
    requires |p| == b && forall j :: 0 <= j < b ==> |p[j]| == c
    ensures |FlattenPlane(p)| == b * c
  {
    if b > 0 {
      FlattenPlaneLength(p[1..], b - 1, c);
      MulSucc(b - 1, c);
    }
  }

  /** The flat layout of an a x N x N histogram has a*N*N entries. */
  lemma {:induction false} FlattenLength(g: Grid3, a: nat, n: nat)
    requires IsBox(g, a, n, n)
    ensures |Flatten(g)| == a * (n * n)
  {
    if a > 0 {
      FlattenPlaneLength(g[0], n, n);
      assert IsBox(g[1..], a - 1, n, n);
      FlattenLength(g[1..], a - 1, n);
      MulSucc(a - 1, n * n);
    }
  }

  /** Cell (j, k) of a plane with rows of N cells sits at k + N*j of its flat layout. */
  lemma {:induction false} FlattenPlaneIndex(p: seq<seq<nat>>, n: nat, j: nat, k: nat)
    requires (forall r :: 0 <= r < |p| ==> |p[r]| == n) && j < |p| && k < n
    ensures k + n * j < |FlattenPlane(p)|
    ensures FlattenPlane(p)[k + n * j] == p[j][k]
  {
    FlattenPlaneLength(p, |p|, n);
    InRowBound(n, |p|, j, k);
    if j > 0 {
      FlattenPlaneIndex(p[1..], n, j - 1, k);
      assert k + n * j == n + (k + n * (j - 1));
    }
  }

  lemma MulSucc(a: nat, m: nat)
    ensures (a + 1) * m == m + a * m
  {
  }

  lemma InRowBound(n: nat, b: nat, j: nat, k: nat)
    requires j < b && k < n
    ensures k + n * j < b * n
  {
    MulLe(j + 1, b, n);
  }

  /** Cell (i, j, k) of the histogram sits at FlatIndex(N, i, j, k) of its flat layout. */
  lemma {:induction false} FlattenIndex(g: Grid3, a: nat, n: nat, i: nat, j: nat, k: nat)
    requires IsBox(g, a, n, n) && i < a && j < n && k < n
    ensures FlatIndex(n, i, j, k) < |Flatten(g)|
    ensures Flatten(g)[FlatIndex(n, i, j, k)] == g[i][j][k]
  {
    var m := n * n;
    FlattenLength(g, a, n);
    FlattenPlaneLength(g[0], n, n);
    InPlane(n, j, k);
    if i == 0 {
      FlattenPlaneIndex(g[0], n, j, k);
    } else {
      assert IsBox(g[1..], a - 1, n, n);
      FlattenIndex(g[1..], a - 1, n, i - 1, j, k);
      PlaneOffset(n, i, j, k);
    }
  }

  lemma PlaneOffset(n: nat, i: nat, j: nat, k: nat)
    requires 0 < i
    ensures FlatIndex(n, i, j, k) == n * n + FlatIndex(n, i - 1, j, k)
  {
    assert n * (j + n * i) == n * j + n * n * i;
    assert n * (j + n * (i - 1)) == n * j + n * n * (i - 1);
    assert n * n * i == n * n * (i - 1) + n * n;
  }
}

=== FILE: messaging.dfy ===
/**
 Tagged point-to-point messages, as the ensemble exchanges them. Each ordered pair
 of ranks has its own queue of messages in send order; a receive for a given tag
 takes the earliest message on that queue carrying the tag and leaves the others
 queued in order, which is the non-overtaking matching rule of section 3.5 of the
 MPI standard for messages with one source, one destination and one communicator.
 */
module Messaging {
  import opened Wrappers

  /** What a message carries: one double, one unsigned count, or a vector of doubles. */
  datatype Payload = Scalar(x: real) | Count(n: nat) | Values(xs: seq<real>)

  datatype Message = Message(tag: nat, payload: Payload)

  /** A message together with the ranks it travels between. */
  datatype Envelope = Envelope(source: nat, destination: nat, message: Message)

  /** The messages still queued on one (source, destination) channel, oldest first. */
  type Queue = seq<Message>

  /** The queue a sequence of sends builds on the channel from source to destination. */
  function Channel(log: seq<Envelope>, source: nat, destination: nat): (q: Queue)
    ensures |q| <= |log|
  {
    if |log| == 0 then []
    else
      var e := log[|log| - 1];
      Channel(log[..|log| - 1], source, destination)
        + (if e.source == source && e.destination == destination then [e.message] else [])
  }

  /** A channel holds a message iff the log sends that message from its source to its destination. */
  lemma {:induction false} ChannelMembers(log: seq<Envelope>, source: nat, destination: nat)
    ensures forall m :: m in Channel(log, source, destination) <==> Envelope(source, destination, m) in log
  {
    if |log| > 0 {
      var init := log[..|log| - 1];
      ChannelMembers(init, source, destination);
      assert log == init + [log[|log| - 1]];
    }
  }

  /** Position of the earliest message with the tag, if any. */
  function FirstTagged(q: Queue, tag: nat): (r: Option<nat>)
    ensures r.None? <==> forall i :: 0 <= i < |q| ==> q[i].tag != tag
    ensures r.Some? ==> (
      && r.value < |q| && q[r.value].tag == tag
      && forall i :: 0 <= i < r.value ==> q[i].tag != tag)
  {
    if |q| == 0 then None
    else if q[0].tag == tag then Some(0)
    else
      match FirstTagged(q[1..], tag)
      case None => None
      case Some(i) => Some(i + 1)
  }

  /** A blocking receive for tag: the earliest matching payload and the queue without it;
      None when no message with the tag will arrive. */
  function Receive(q: Queue, tag: nat): (r: Option<(Payload, Queue)>)
    ensures r.None? <==> forall i :: 0 <= i < |q| ==> q[i].tag != tag
    ensures r.Some? ==> |r.value.1| + 1 == |q|
  {
    match FirstTagged(q, tag)
    case None => None
    case Some(i) => Some((q[i].payload, q[..i] + q[i + 1..]))
  }

  /** Receiving from the front: when the oldest message has the tag, it is the one taken. */
  lemma ReceiveHead(m: Message, rest: Queue)
    ensures Receive([m] + rest, m.tag) == Some((m.payload, rest))
  {
    var q := [m] + rest;
    assert FirstTagged(q, m.tag) == Some(0);
    assert q[..0] + q[1..] == rest;
  }

  /** Receiving past the front: a message with another tag stays at the front of the queue,
      and the receive acts on the rest as if it were not there. */
  lemma ReceiveSkip(m: Message, rest: Queue, tag: nat)
    requires m.tag != tag
    ensures Receive([m] + rest, tag) == match Receive(rest, tag)
      case None => None
      case Some(pr) => Some((pr.0, [m] + pr.1))
  {
    var q := [m] + rest;
    assert q[1..] == rest;
    match FirstTagged(rest, tag)
    case None =>
    case Some(i) =>
      assert FirstTagged(q, tag) == Some(i + 1);
      assert q[i + 1] == rest[i];
      assert q[..i + 1] + q[i + 2..] == [m] + (rest[..i] + rest[i + 1..]);
  }

  /** Sending appends to the end of exactly one channel. */
  lemma ChannelSend(log: seq<Envelope>, e: Envelope, source: nat, destination: nat)
    ensures Channel(log + [e], source, destination)
      == Channel(log, source, destination)
        + (if e.source == source && e.destination == destination then [e.message] else [])
  {
    assert (log + [e])[..|log|] == log;
  }

  /** The channel of a log made of two parts is the first part's channel followed by the second's. */
  lemma {:induction false} ChannelAppend(a: seq<Envelope>, b: seq<Envelope>, source: nat, destination: nat)
    ensures Channel(a + b, source, destination) == Channel(a, source, destination) + Channel(b, source, destination)
    decreases |b|
  {
    if |b| == 0 {
      assert a + b == a;
    } else {
      var b' := b[..|b| - 1];
      var e := b[|b| - 1];
      assert a + b == (a + b') + [e];
      assert b == b' + [e];
      ChannelAppend(a, b', source, destination);
      ChannelSend(a + b', e, source, destination);
      ChannelSend(b', e, source, destination);
    }
  }
}

=== FILE: simulation.dfy ===
/**
 The grid-side state of one particle-mesh simulation: construction of the three
 complex N^3 buffers, binning of particles into an occupancy histogram, and the
 deposition of the histogram into the real part of the density buffer.
 */
module Simulation {
  import opened GridIndex
  import opened Histogram

  /** Three real components, used for positions and velocities. */
  datatype Vec3 = Vec3(x: real, y: real, z: real)

  datatype Particle = Particle(position: Vec3, velocity: Vec3)

  /** A collection of equal-mass particles; its particle count is |particles|. */
  datatype ParticleGroup = ParticleGroup(mass: real, particles: seq<Particle>)

  /** One cell of a complex transform buffer: component [0] is re, component [1] is im. */
  datatype Complex = Complex(re: real, im: real)

  const Zero: Complex := Complex(0.0, 0.0)

  /** The state the simulation object holds: run parameters, the particles, the
      grid side N (`cells`) and the density, potential and frequency-domain buffers. */
  datatype Simulation = Simulation(
    timeMax: real,
    timeStep: real,
    group: ParticleGroup,
    boxWidth: real,
    cells: nat,
    expansionFactor: real,
    density: seq<Complex>,
    potential: seq<Complex>,
    kSpace: seq<Complex>)

  predicate InUnitCube(v: Vec3) {
    0.0 <= v.x < 1.0 && 0.0 <= v.y < 1.0 && 0.0 <= v.z < 1.0
  }

  /** Every particle lies in the periodic unit cube, as binning presumes. */
  predicate PositionsInUnitCube(ps: seq<Particle>) {
    forall p :: 0 <= p < |ps| ==> InUnitCube(ps[p].position)
  }

  /** The buffers have N^3 cells each, and N^3 fits the `uint` buffer length. */
  predicate BuffersSized(s: Simulation) {
    var len := s.cells * s.cells * s.cells;
    len < UintLimit && |s.density| == len && |s.potential| == len && |s.kSpace| == len
  }

  /** Builds a simulation: the parameters are stored as given, and each of the
      three buffers gets N^3 cells whose both components are zero. */
  function NewSimulation(tMax: real, tStep: real, group: ParticleGroup, w: real, n: nat, e: real): (s: Simulation)
    requires n * n * n < UintLimit
    ensures BuffersSized(s) && s.cells == n
    ensures forall q :: 0 <= q < n * n * n ==> s.density[q] == Zero && s.potential[q] == Zero && s.kSpace[q] == Zero
    ensures s.timeMax == tMax && s.timeStep == tStep && s.group == group
    ensures s.boxWidth == w && s.expansionFactor == e
  {
    var len := n * n * n;
    Simulation(tMax, tStep, group, w, n, e, seq(len, _ => Zero), seq(len, _ => Zero), seq(len, _ => Zero))
  }

  /** The cell a particle falls into: its three coordinates floored at resolution N. */
  function CellOfParticle(p: Particle, n: nat): (c: (nat, nat, nat))
    requires InUnitCube(p.position) && 0 < n
    ensures InGrid(n, c.0, c.1, c.2)
  {
    (CellOf(p.position.x, n), CellOf(p.position.y, n), CellOf(p.position.z, n))
  }

  /** The number of particles of ps whose cell is (i, j, k). */
  function Occupancy(ps: seq<Particle>, n: nat, i: nat, j: nat, k: nat): nat
    requires PositionsInUnitCube(ps) && 0 < n
  {
    if |ps| == 0 then 0
    else
      var last := ps[|ps| - 1];
      Occupancy(ps[..|ps| - 1], n, i, j, k) + (if CellOfParticle(last, n) == (i, j, k) then 1 else 0)
  }

  /** Occupancy of a prefix grows by one particle at a time, in the cell of that particle only. */
  lemma OccupancyStep(ps: seq<Particle>, n: nat, p: nat, i: nat, j: nat, k: nat)
    requires PositionsInUnitCube(ps) && 0 < n && p < |ps|
    ensures Occupancy(ps[..p + 1], n, i, j, k)
      == Occupancy(ps[..p], n, i, j, k) + (if CellOfParticle(ps[p], n) == (i, j, k) then 1 else 0)
  {
    assert ps[..p + 1][..p] == ps[..p];
  }

  /** Binning one more particle keeps every count equal to the occupancy of the binned prefix. */
  lemma BinStep(counts: Grid3, next: Grid3, ps: seq<Particle>, n: nat, p: nat)
    requires PositionsInUnitCube(ps) && 0 < n && p < |ps|
    requires IsBox(counts, n, n, n) && IsBox(next, n, n, n)
    requires forall i, j, k :: InGrid(n, i, j, k) ==> counts[i][j][k] == Occupancy(ps[..p], n, i, j, k)
    requires var c := CellOfParticle(ps[p], n);
      next[c.0][c.1][c.2] == counts[c.0][c.1][c.2] + 1
      && forall a, b, d :: InGrid(n, a, b, d) && (a, b, d) != c ==> next[a][b][d] == counts[a][b][d]
    ensures forall i, j, k :: InGrid(n, i, j, k) ==> next[i][j][k] == Occupancy(ps[..p + 1], n, i, j, k)
  {
    forall i, j, k | InGrid(n, i, j, k)
      ensures next[i][j][k] == Occupancy(ps[..p + 1], n, i, j, k)
    {
      OccupancyStep(ps, n, p, i, j, k);
    }
  }

  /** Counts the particles in every cell of the N x N x N grid. */
  method BinParticles(s: Simulation) returns (counts: Grid3)
    requires PositionsInUnitCube(s.group.particles)
    requires 0 < s.cells || |s.group.particles| == 0
    ensures IsBox(counts, s.cells, s.cells, s.cells)
    ensures GridSum(counts) == |s.group.particles|
    ensures forall i, j, k :: InGrid(s.cells, i, j, k) ==>
      counts[i][j][k] == Occupancy(s.group.particles, s.cells, i, j, k)
  {
    var n := s.cells;
    var ps := s.group.particles;
    counts := EmptyHistogram(n);
    var p := 0;
    while p < |ps|
      invariant 0 <= p <= |ps|
      invariant IsBox(counts, n, n, n)
      invariant GridSum(counts) == p
      invariant forall i, j, k :: InGrid(n, i, j, k) ==> counts[i][j][k] == Occupancy(ps[..p], n, i, j, k)
    {
      var c := CellOfParticle(ps[p], n);
      var next := Increment(counts, n, c.0, c.1, c.2);
      BinStep(counts, next, ps, n, p);
      counts := next;
      p := p + 1;
    }
    assert ps[..p] == ps;
  }

  /** The volume of one grid cell, (W / N)^3. */
  function CellVolume(w: real, n: nat): (v: real)
    requires 0 < n
    ensures w != 0.0 ==> v != 0.0
  {
    var cellWidth := w / n as real;
    CubeNonZero(cellWidth);
    cellWidth * cellWidth * cellWidth
  }

  lemma CubeNonZero(x: real)
    ensures x != 0.0 ==> x * x * x != 0.0
  {
    if x != 0.0 {
      assert x * x != 0.0;
    }
  }

  /** Sum of the real parts of a buffer. */
  function ReSum(b: seq<Complex>): real {
    if |b| == 0 then 0.0 else b[0].re + ReSum(b[1..])
  }

  /** The total mass of a particle group. */
  function GroupMass(g: ParticleGroup): real {
    |g.particles| as real * g.mass
  }

  /** The mass a density buffer holds: the sum of its real parts times the cell volume. */
  function BufferMass(buf: seq<Complex>, volume: real): real {
    ReSum(buf) * volume
  }

  /** The value deposition writes into a cell holding count particles; the imaginary part is kept. */
  function Deposited(count: nat, mass: real, volume: real, previous: Complex): Complex
    requires volume != 0.0
  {
    Complex(CellDensity(count, mass, volume), previous.im)
  }

  /** The density of a cell holding count particles of the given mass: count * mass / volume. */
  function CellDensity(count: nat, mass: real, volume: real): real
    requires volume != 0.0
  {
    count as real * mass / volume
  }

  /** The density buffer a fill produces from the flat counts: cell q gets count q deposited
      into its real part and keeps the imaginary part it had before. */
  function DepositedBuffer(flat: seq<nat>, mass: real, volume: real, before: seq<Complex>): (r: seq<Complex>)
    requires volume != 0.0 && |flat| == |before|
    ensures |r| == |flat|
  {
    if |flat| == 0 then []
    else [Deposited(flat[0], mass, volume, before[0])] + DepositedBuffer(flat[1..], mass, volume, before[1..])
  }

  /** Cell q of a deposited buffer holds the deposit of count q. */
  lemma {:induction false} DepositedBufferAt(flat: seq<nat>, mass: real, volume: real, before: seq<Complex>, q: nat)
    requires volume != 0.0 && |flat| == |before| && q < |flat|
    ensures DepositedBuffer(flat, mass, volume, before)[q] == Deposited(flat[q], mass, volume, before[q])
  {
    if q > 0 {
      DepositedBufferAt(flat[1..], mass, volume, before[1..], q - 1);
    }
  }

  /** A buffer whose every cell is the deposit of its count is the deposited buffer. */
  lemma {:induction false} DepositedBufferUnique(buf: seq<Complex>, flat: seq<nat>, mass: real, volume: real, before: seq<Complex>)
    requires volume != 0.0 && |buf| == |flat| == |before|
    requires forall q :: 0 <= q < |buf| ==> buf[q] == Deposited(flat[q], mass, volume, before[q])
    ensures buf == DepositedBuffer(flat, mass, volume, before)
  {
    if |buf| > 0 {
      DepositedBufferUnique(buf[1..], flat[1..], mass, volume, before[1..]);
      assert buf == [buf[0]] + buf[1..];
    }
  }

  /** Deposition conserves mass: the real parts times the cell volume add up to the total count times the mass. */
  lemma {:induction false} DepositedBufferMass(flat: seq<nat>, mass: real, volume: real, before: seq<Complex>)
    requires volume != 0.0 && |flat| == |before|
    ensures BufferMass(DepositedBuffer(flat, mass, volume, before), volume) == RowSum(flat) as real * mass
  {
    if |flat| > 0 {
      var rest := DepositedBuffer(flat[1..], mass, volume, before[1..]);
      DepositedBufferMass(flat[1..], mass, volume, before[1..]);
      var b := DepositedBuffer(flat, mass, volume, before);
      assert b[1..] == rest;
      CellMass(flat[0] as real, mass, volume, ReSum(rest), RowSum(flat[1..]) as real);
    }
  }

  /** One deposited cell plus the rest: (c * m / v + r) * v == c * m + t * m when r * v == t * m. */
  lemma CellMass(c: real, mass: real, volume: real, r: real, t: real)
    requires volume != 0.0 && r * volume == t * mass
    ensures (c * mass / volume + r) * volume == (c + t) * mass
  {
  }

  /** The cells of buf before flat index p hold the deposited values of the flat counts,
      and the cells from p on still hold what the buffer held before the fill. */
  ghost predicate DepositedUpTo(buf: seq<Complex>, before: seq<Complex>, flat: seq<nat>, mass: real, volume: real, p: nat)
    requires volume != 0.0
  {
    && |buf| == |before| == |flat|
    && (forall q :: 0 <= q < p && q < |buf| ==> buf[q] == Deposited(flat[q], mass, volume, before[q]))
    && (forall q :: p <= q < |buf| ==> buf[q] == before[q])
  }

  /** Writing the deposited value into cell p extends the deposited prefix by one cell. */
  lemma DepositStep(buf: seq<Complex>, before: seq<Complex>, flat: seq<nat>, mass: real, volume: real, p: nat)
    requires volume != 0.0 && p < |buf|
    requires DepositedUpTo(buf, before, flat, mass, volume, p)
    ensures DepositedUpTo(buf[p := Deposited(flat[p], mass, volume, buf[p])], before, flat, mass, volume, p + 1)
  {
  }

  /** Writes the cells (i, j, 0) .. (i, j, N-1) of the density buffer: the innermost loop of the fill. */
  method DepositRow(buf: seq<Complex>, counts: Grid3, n: nat, i: nat, j: nat, mass: real, w: real,
                    ghost before: seq<Complex>)
    returns (buf': seq<Complex>)
    requires 0 < n && i < n && j < n && w != 0.0 && IsBox(counts, n, n, n)
    requires DepositedUpTo(buf, before, Flatten(counts), mass, CellVolume(w, n), FlatIndex(n, i, j, 0))
    ensures DepositedUpTo(buf', before, Flatten(counts), mass, CellVolume(w, n), FlatIndex(n, i, j + 1, 0))
  {
    ghost var flat := Flatten(counts);
    ghost var volume := CellVolume(w, n);
    buf' := buf;
    var k := 0;
    while k < n
      invariant 0 <= k <= n
      invariant DepositedUpTo(buf', before, flat, mass, volume, FlatIndex(n, i, j, k))
    {
      var index := k + n * (j + n * i);
      ghost var p := FlatIndex(n, i, j, k);
      assert index == p;
      FlattenIndex(counts, n, n, i, j, k);
      DepositStep(buf', before, flat, mass, volume, p);
      buf' := buf'[index := Deposited(counts[i][j][k], mass, CellVolume(w, n), buf'[index])];
      assert FlatIndex(n, i, j, k + 1) == p + 1;
      k := k + 1;
    }
    RowCarry(n, i, j);
  }

  /** The two outer loops of the fill: every plane i, every row j. */
  method DepositAll(density: seq<Complex>, counts: Grid3, n: nat, mass: real, w: real) returns (buf: seq<Complex>)
    requires 0 < n && w != 0.0 && IsBox(counts, n, n, n) && |density| == n * n * n
    ensures |density| == |Flatten(counts)|
    ensures buf == DepositedBuffer(Flatten(counts), mass, CellVolume(w, n), density)
  {
    ghost var flat := Flatten(counts);
    ghost var volume := CellVolume(w, n);
    FlattenLength(counts, n, n);
    assert |flat| == |density|;
    buf := density;
    var i := 0;
    while i < n
      invariant 0 <= i <= n
      invariant DepositedUpTo(buf, density, flat, mass, volume, FlatIndex(n, i, 0, 0))
    {
      var j := 0;
      while j < n
        invariant 0 <= j <= n
        invariant DepositedUpTo(buf, density, flat, mass, volume, FlatIndex(n, i, j, 0))
      {
        buf := DepositRow(buf, counts, n, i, j, mass, w, density);
        j := j + 1;
      }
      PlaneCarry(n, i);
      i := i + 1;
    }
    GridEnd(n);
    DepositedBufferUnique(buf, flat, mass, volume, density);
  }

  /** A cell deposited from a count that equals c holds c * mass / volume. */
  lemma DepositedValue(flat: seq<nat>, mass: real, volume: real, before: seq<Complex>, q: nat, c: nat)
    requires volume != 0.0 && |flat| == |before| && q < |flat| && flat[q] == c
    ensures DepositedBuffer(flat, mass, volume, before)[q].re == CellDensity(c, mass, volume)
    ensures DepositedBuffer(flat, mass, volume, before)[q].im == before[q].im
  {
    DepositedBufferAt(flat, mass, volume, before, q);
  }

  /** Cell (i, j, k) of the deposited buffer holds the count c of that cell times mass / volume. */
  lemma DepositedCell(counts: Grid3, n: nat, mass: real, volume: real, before: seq<Complex>, i: nat, j: nat, k: nat, c: nat)
    requires volume != 0.0 && IsBox(counts, n, n, n) && |before| == |Flatten(counts)|
    requires InGrid(n, i, j, k) && counts[i][j][k] == c
    ensures var q := FlatIndex(n, i, j, k);
      q < |before| && DepositedBuffer(Flatten(counts), mass, volume, before)[q].re == CellDensity(c, mass, volume)
  {
    FlattenIndex(counts, n, n, i, j, k);
    DepositedValue(Flatten(counts), mass, volume, before, FlatIndex(n, i, j, k), c);
  }

  /** Flat cell q of the deposited buffer holds the count c of the cell stored at q times mass / volume. */
  lemma DepositedIndex(counts: Grid3, n: nat, mass: real, volume: real, before: seq<Complex>, q: nat, c: nat)
    requires volume != 0.0 && IsBox(counts, n, n, n) && |before| == |Flatten(counts)|
    requires q < n * n * n && var cell := CellAt(n, q); counts[cell.0][cell.1][cell.2] == c
    ensures q < |before| && DepositedBuffer(Flatten(counts), mass, volume, before)[q].re == CellDensity(c, mass, volume)
  {
    var cell := CellAt(n, q);
    DepositedCell(counts, n, mass, volume, before, cell.0, cell.1, cell.2, c);
  }

  /** The fill keeps the imaginary part of every cell. */
  lemma FillIm(buf: seq<Complex>, counts: Grid3, mass: real, volume: real, before: seq<Complex>)
    requires volume != 0.0 && |before| == |Flatten(counts)|
    requires buf == DepositedBuffer(Flatten(counts), mass, volume, before)
    ensures forall q :: 0 <= q < |before| ==>
      buf[q].im == before[q].im
  {
    forall q | 0 <= q < |before|
      ensures buf[q].im == before[q].im
    {
      DepositedValue(Flatten(counts), mass, volume, before, q, Flatten(counts)[q]);
    }
  }

  /** When the counts are the occupancies of ps, cell (i, j, k) of the filled buffer holds
      the density of its occupancy. */
  lemma FillByCell(buf: seq<Complex>, ps: seq<Particle>, counts: Grid3, n: nat, mass: real, volume: real, before: seq<Complex>)
    requires PositionsInUnitCube(ps) && 0 < n && volume != 0.0
    requires IsBox(counts, n, n, n) && |before| == n * n * n == |Flatten(counts)|
    requires forall i, j, k :: InGrid(n, i, j, k) ==> counts[i][j][k] == Occupancy(ps, n, i, j, k)
    requires buf == DepositedBuffer(Flatten(counts), mass, volume, before)
    ensures forall i, j, k :: InGrid(n, i, j, k) ==>
      buf[FlatIndex(n, i, j, k)].re
        == CellDensity(Occupancy(ps, n, i, j, k), mass, volume)
  {
    forall i, j, k | InGrid(n, i, j, k)
      ensures buf[FlatIndex(n, i, j, k)].re
        == CellDensity(Occupancy(ps, n, i, j, k), mass, volume)
    {
      DepositedCell(counts, n, mass, volume, before, i, j, k, Occupancy(ps, n, i, j, k));
    }
  }

  /** The same, cell by flat index: flat cell q holds the density of the occupancy of the cell stored at q. */
  lemma FillByIndex(buf: seq<Complex>, ps: seq<Particle>, counts: Grid3, n: nat, mass: real, volume: real, before: seq<Complex>)
    requires PositionsInUnitCube(ps) && 0 < n && volume != 0.0
    requires IsBox(counts, n, n, n) && |before| == n * n * n == |Flatten(counts)|
    requires forall i, j, k :: InGrid(n, i, j, k) ==> counts[i][j][k] == Occupancy(ps, n, i, j, k)
    requires buf == DepositedBuffer(Flatten(counts), mass, volume, before)
    ensures forall q :: 0 <= q < |before| ==>
      var c := CellAt(n, q);
      buf[q].re
        == CellDensity(Occupancy(ps, n, c.0, c.1, c.2), mass, volume)
  {
    forall q | 0 <= q < |before|
      ensures var c := CellAt(n, q);
        buf[q].re
          == CellDensity(Occupancy(ps, n, c.0, c.1, c.2), mass, volume)
    {
      var c := CellAt(n, q);
      DepositedIndex(counts, n, mass, volume, before, q, Occupancy(ps, n, c.0, c.1, c.2));
    }
  }

  /** The mass a fill deposits is the mass of all binned particles. */
  lemma FillMass(flat: seq<nat>, g: ParticleGroup, volume: real, before: seq<Complex>)
    requires volume != 0.0 && |before| == |flat| && RowSum(flat) == |g.particles|
    ensures BufferMass(DepositedBuffer(flat, g.mass, volume, before), volume) == GroupMass(g)
  {
    DepositedBufferMass(flat, g.mass, volume, before);
    CountedMass(BufferMass(DepositedBuffer(flat, g.mass, volume, before), volume), RowSum(flat), g);
  }

  /** A mass of count particles of the group, where count is the group's size, is the group's mass. */
  lemma CountedMass(x: real, count: nat, g: ParticleGroup)
    requires x == count as real * g.mass && count == |g.particles|
    ensures x == GroupMass(g)
  {
  }

  /** Bins the particles and writes count * mass / (W / N)^3 into the real part of every
      density cell. The imaginary parts and the other buffers are left as they were,
      every real part is overwritten, and the deposited mass equals the particles' mass. */
  method FillDensityBuffer(s: Simulation) returns (s': Simulation)
    requires BuffersSized(s) && PositionsInUnitCube(s.group.particles)
    requires 0 < s.cells || |s.group.particles| == 0
    requires s.boxWidth != 0.0
    ensures s' == s.(density := s'.density)
    ensures |s'.density| == |s.density|
    ensures forall q :: 0 <= q < |s.density| ==> s'.density[q].im == s.density[q].im
    ensures forall i, j, k :: InGrid(s.cells, i, j, k) ==>
      s'.density[FlatIndex(s.cells, i, j, k)].re
        == CellDensity(Occupancy(s.group.particles, s.cells, i, j, k), s.group.mass, CellVolume(s.boxWidth, s.cells))
    ensures forall q :: 0 <= q < |s.density| ==>
      var c := CellAt(s.cells, q);
      s'.density[q].re
        == CellDensity(Occupancy(s.group.particles, s.cells, c.0, c.1, c.2), s.group.mass, CellVolume(s.boxWidth, s.cells))
    ensures 0 < s.cells ==>
      BufferMass(s'.density, CellVolume(s.boxWidth, s.cells)) == GroupMass(s.group)
  {
    var counts := BinParticles(s);
    var n := s.cells;
    if n == 0 {
      s' := s;
    } else {
      var buf := DepositAll(s.density, counts, n, s.group.mass, s.boxWidth);
      s' := s.(density := buf);
      FillIm(s'.density, counts, s.group.mass, CellVolume(s.boxWidth, s.cells), s.density);
      FillByCell(s'.density, s.group.particles, counts, s.cells, s.group.mass, CellVolume(s.boxWidth, s.cells), s.density);
      FillByIndex(s'.density, s.group.particles, counts, s.cells, s.group.mass, CellVolume(s.boxWidth, s.cells), s.density);
      FlattenSum(counts);
      FillMass(Flatten(counts), s.group, CellVolume(s.boxWidth, s.cells), s.density);
    }
  }
}

=== FILE: wrappers.dfy ===
/** Failure-compatible wrappers shared by the modules of this model. */
module Wrappers {

  /** A value that may be absent; used for variables the program leaves uninitialised. */
  datatype Option<+T> = None | Some(value: T)

  /** The outcome of an operation that may fail with an error of type E. */
  datatype Result<+T, +E> = Ok(value: T) | Err(error: E)
}
